=== FILE: README.md ===
# AskDb core, modelled in Dafny

AskDb is a small text-to-SQL web application: a Flask server (`app.py`) turns
an English question into SQL with a language model, runs it over an uploaded
CSV/JSON table, and two browser scripts show the answer. This project models
the parts of it that are pure decisions over strings and records, and proves
what they promise.

- **Chart advisor and data builder** (`static/js/visualization.js`,
  module `Visualization`): `canVisualize`, `suggestChartType` and
  `prepareChartData`. Records are sequences of key/value fields in
  `Object.keys` order (module `Records`). JavaScript's `isNaN` coercion is
  written out as `NumericLike`, with the StringNumericLiteral grammar of
  section 7.1.4.1 of ECMA-262 deciding whether a string converts to a number.
- **Query page** (`static/js/query.js`, modules `QueryPage`, `Format`, `Csv`):
  - `executeQuery` as a map from a page state, the input text and the settled
    request to the next page state;
  - the key-lookup table renderer;
  - `formatHeader`, and `formatValue` with its locale-dependent renderings
    passed in as parameters;
  - `showError`;
  - the CSV text of `downloadResults`, with a reader given as its partner.
- **Alternate page** (`static/app.js`, module `AppPage`): the submit handler
  split into `Start` (enter the in-flight state) and `Finish` (settle and
  leave it). It also covers the positional table renderer and the
  append-only history of `saveQuery`.
- **Server helpers** (`app.py`):
  - `allowed_file` (module `Uploads`);
  - the stored-query short cut and the SQL safety check and clean-up of
    `get_sql_from_gemini` (module `SqlGuard`);
  - the simplified filtering fallback of `api_query` (module `Fallback`);
  - `generate_summary` (module `Summary`).

The browser's state is an immutable `Page` value, and each handler returns
the next one. How a `fetch` settles is a `Reply` parameter (module
`Protocol`), and so is the language model's answer and the clock reading that
`new Date()` gives.

Two facts of the chart data builder that the model keeps as the code has
them:
- the pie dataset lists exactly the eight colours given at
  `static/js/visualization.js:54-57`, whatever the number of rows; how
  further slices are coloured is up to the chart library;
- every bar and line series gets the same colour `#36A2EB`.

## Model

| member | source | states |
|---|---|---|
| Visualization.CanVisualize | static/js/visualization.js:2-8 | false for missing or empty data; for non-empty data, true exactly when some value of the first record is numeric-like |
| Visualization.SuggestChartType | static/js/visualization.js:11-37 | a chart is suggested only for non-empty data with a numeric column; a pie only for at most ten rows and two columns; a line only when a first-record value is a Date instance |
| Visualization.SuggestAgreesWithCanVisualize | static/js/visualization.js:2-19 | on records with distinct keys, `suggestChartType` gives a chart exactly when `canVisualize` holds, so both are false for missing or empty data |
| Visualization.NumericColumnExists | static/js/visualization.js:6-17 | some value of the first record is numeric-like exactly when some column is classified numeric |
| Visualization.PieRule | static/js/visualization.js:21-24 | two columns, one of them numeric: pie for at most ten rows, bar otherwise |
| Visualization.LineOrBarRule | static/js/visualization.js:26-36 | outside the pie rule, a non-null suggestion is line when a Date value is present and bar otherwise |
| Visualization.NoDateNoLine | static/js/visualization.js:27-29 | a first record holding no Date instance never gets a line chart |
| Visualization.ColumnsPartition | static/js/visualization.js:41-47 | numeric and category columns are disjoint, together give all keys, and each keeps key order (an interleaving) |
| Visualization.PrepareChartData | static/js/visualization.js:40-85 | one label per row taken from the first category column, or from the key "undefined" when there is none; pie: one dataset of the first numeric column (again "undefined" when there is none) with the fixed eight colours; bar/line: one dataset per numeric column, in order, holding that column's values row by row |
| Visualization.AdvisedPieUsesBothColumns | static/js/visualization.js:49-59 | for a pie the advisor chose, labels and slices come from the record's one category and one numeric column |
| Visualization.AdvisedChartHasSeries | static/js/visualization.js:62-84 | an advised bar or line chart has one dataset per numeric column, hence at least one |
| Records.Lookup | static/js/query.js:86 | `row[header]` is undefined exactly when the key is not among the row's keys |
| Records.LookupOwnKey | static/js/query.js:84-86 | with distinct keys, looking up a record's own key gives that property's value |
| Records.NumericLike | static/js/visualization.js:6 | `!isNaN(v)`: null, booleans, numbers and Date values are numeric-like, and so is a string that is blank after trimming |
| Records.IsNumericString | static/js/visualization.js:15-17 | a numeric string, once trimmed, is empty or starts with a digit, a sign, a '.' or the 'I' of Infinity |
| Records.DigitStringIsNumeric | static/js/visualization.js:15-17 | a string of decimal digits is numeric-like under `isNaN` |
| Records.WordIsNotNumeric | static/js/visualization.js:45-47 | a word such as "Jan" is NaN under `isNaN`, so its column is categorical |
| Format.FormatHeader | static/js/query.js:96-101 | the header has the input's length and no '_'; each '_' becomes a space and the first character of every piece is upper-cased |
| Format.HeaderSpecIsFormatHeader | static/js/query.js:96-101 | split on '_', capitalise and join with ' ' equals the character-by-character description |
| Format.FormatValue | static/js/query.js:104-116 | null and undefined show '-'; a string not starting with a date stays unchanged; booleans print as true/false; numbers and dates use the locale renderings |
| Csv.FieldRoundTrip | static/js/query.js:208-209 | stripping the outer quotes of an escaped field and un-doubling its quotes gives back the cell text |
| Csv.ReadFieldsLine | static/js/query.js:207-212 | a line of escaped fields joined by ',' reads back as exactly those cells |
| Csv.CsvRoundTrip | static/js/query.js:196-215 | the exported text reads back as the table: one line per row, one field per cell |
| QueryPage.ShowError | static/js/query.js:119-127 | the error is visible with the given message and the results are hidden; the SQL box, the table and the loading indicator are left as they were |
| QueryPage.RenderTable | static/js/query.js:64-90 | the header row holds the first record's formatted keys; each body row has as many cells, each being the formatted value of that row under that key |
| QueryPage.MissingKeyShowsDash | static/js/query.js:84-88 | a row lacking a header key shows '-' in that cell |
| QueryPage.DisplayResults | static/js/query.js:58-93 | missing or empty data gives 'No results found'; otherwise the table is replaced by the rendered table |
| QueryPage.ClassifyReply | static/js/query.js:27-48 | a settled request is never classified as blank input, and results always carry rows |
| QueryPage.Receive | static/js/query.js:27-51 | a failure is exactly `showError` of its message on the page as it was, so the previous SQL and table stay; success without rows shows 'No results found for your query' and keeps the old table; success with rows shows the rendered table; on every success the SQL box shows the reply's SQL text, or nothing when it has none |
| QueryPage.ExecuteQuery | static/js/query.js:2-55 | blank input makes no request and shows 'Please enter a query'; otherwise the trimmed text is sent and the loading indicator is hidden afterwards |
| QueryPage.ExecuteQueryOutcome | static/js/query.js:13-54 | after a request exactly one of error and results is shown, with the message or table its outcome calls for; a failure changes nothing else but the hidden loading indicator |
| QueryPage.DownloadResults | static/js/query.js:196-215 | the exported text of a non-empty table reads back as exactly that table |
| QueryPage.ExportAfterResults | static/js/query.js:196-215 | after a query that showed results, the exported CSV reads back as the rendered table |
| AppPage.ShowError | static/app.js:88-92 | the error is visible with the message, the result hidden, the history unchanged |
| AppPage.DisplayResults | static/app.js:54-86 | headers are the first record's raw keys; body row i is row i's own values in its own order; empty data gives 'No results found' |
| AppPage.SaveQuery | static/app.js:97-104 | exactly one entry is appended at the end and earlier entries are unchanged |
| AppPage.Start | static/app.js:11-24 | blank input shows 'Please enter a query' and leaves the button and indicator alone; otherwise the button is disabled and loading shown |
| AppPage.Receive | static/app.js:34-47 | a success displays its data and records one history entry, even for empty data; a network failure shows its message, a non-JSON body its parse message, an HTTP error the server's error or 'Failed to execute query', an unsuccessful JSON answer the server's error or 'Unknown error occurred'; each failure leaves the history alone |
| AppPage.Submit | static/app.js:11-52 | no request exactly when the trimmed input is blank, which shows 'Please enter a query'; otherwise the trimmed text is sent, the controls are restored, exactly one of error and result shows; a blank click leaves the button and indicator as they were; the history gains one entry exactly when the reply is a success |
| AppPage.Finish | static/app.js:48-51 | on every exit the button is enabled and the indicator hidden, and exactly one of error and result is visible |
| AppPage.HistoryRecordsSuccesses | static/app.js:95-104 | over any sequence of clicks the history grows by exactly the successful ones, in order, with nothing removed |
| AppPage.PositionalAgreesWithKeyed | static/app.js:74-80 | rows listing their keys in the first row's order show under each header the value a key lookup would give |
| AppPage.PositionalDiffersFromKeyed | static/app.js:74-80 | a row listing its keys in another order shows, under header `a`, a value that is not its `a` value |
| Uploads.AllowedFile | app.py:62-64 | an accepted name has a '.' four or five characters from its end |
| Uploads.LastIndexOf | app.py:64 | the position of the last dot, or none when there is no dot |
| Uploads.AllowedFileIsSuffix | app.py:62-64 | a file is accepted exactly when its name ends in ".csv" or ".json" in any ASCII case |
| Uploads.EmptyExtensionRefused | app.py:64 | "x." is refused |
| Uploads.DotlessNameRefused | app.py:64 | "csv" is refused |
| Uploads.UpperCaseExtensionAccepted | app.py:64 | "DATA.Csv" is accepted |
| SqlGuard.GetSqlAsWritten | app.py:104-189 | a stored query is returned verbatim; a model error is passed on with the common prefix; a model answer is accepted exactly when its stripped, lower-cased text mentions no forbidden keyword and starts with 'select', and then the cleaned stripped text is returned; otherwise the error is 'Only SELECT statements are allowed' or 'Query must start with SELECT', each with the common prefix |
| SqlGuard.GetSql | app.py:165-181 | as written, except that the forbidden-keyword test runs on the cleaned text, so accepted SQL mentions no forbidden keyword; the select test still reads the stripped text; the same two error texts and the cleaned text on acceptance |
| SqlGuard.Clean | app.py:173-177 | cleaned text has no backtick, '"' or newline, no whitespace at either end and no run of two |
| SqlGuard.StripSqlPrefix | app.py:179-181 | text not starting with 'sql' in any case is left alone; otherwise at least the three letters are removed |
| SqlGuard.CleanIdempotent | app.py:173-177 | cleaning twice is cleaning once |
| SqlGuard.AcceptedShape | app.py:170-181 | text starting with select still starts with select after clean-up, so the 'sql' strip never fires |
| SqlGuard.CleanUpRevealsKeyword | app.py:165-177 | when clean-up assembles a keyword the raw test missed, the as-written function accepts the text and the corrected one rejects it |
| SqlGuard.AsWrittenLetsKeywordThrough | app.py:165-177 | "select d\`rop" is accepted as written and returned as "select drop" |
| Fallback.SecondPiece | app.py:312 | the second piece of `split(p)` starts right after the first `p` and ends at the next `p` or at the end |
| Fallback.Conditions | app.py:312 | the conditions text has no whitespace at either end and no 'where' starting anywhere in it |
| Fallback.KeyPasses | app.py:319 | a key passes when the conditions mention its value's `str()`, and whenever the key and its value's `str()` agree ignoring case |
| Fallback.FallbackFilter | app.py:309-327 | no 'where' gives all the data; otherwise the records passing the filter on the text between the first two 'where's |
| Fallback.FilterItems | app.py:315-324 | the outer loop keeps exactly the matching items, in order |
| Fallback.ItemMatches | app.py:317-321 | the inner loop with its early exit says whether every key passes |
| Fallback.FilteredMembers | app.py:315-324 | a record is in the result exactly when it is in the data and passes |
| Fallback.FilteredAppend | app.py:315-324 | filtering distributes over concatenation, so the kept records keep their order |
| Fallback.FilteredIdempotent | app.py:315-324 | filtering twice with the same conditions is filtering once |
| Fallback.FilteredLength | app.py:315-324 | the result is never longer than the data |
| Fallback.FilteredAll | app.py:315-324 | when every record passes, the data comes back unchanged |
| Summary.Summarize | app.py:206-215 | the text is "No data available." exactly when there is no data |
| Summary.SummaryRoundTrip | app.py:208-215 | the summary reads back as the record count and the first record's key count |

## Left out

- The language model, pandas/pandasql, file saving, `secure_filename` and
  upload parsing: foreign services and libraries. The model's text is a
  parameter, and so is a fallback's record list.
- Flask routing, JSON responses, CORS and logging: HTTP plumbing. The reply a
  browser sees is the `Reply` datatype.
- Number and date locale formatting (`toLocaleString`, `toLocaleDateString`):
  passed in as the `Locale` parameter of `Format.FormatValue`.
- Unicode case mapping: `lower()` and `toUpperCase()` are modelled on ASCII
  letters only. Other characters are kept as they are.
- NaN, infinite and invalid-Date cells: a number cell is a real, and a `Date`
  cell stands for a valid Date instance.
- Nested arrays or objects inside a record cell, and records that are not
  objects: a modelling choice. An uploaded JSON file is kept as it is, so such
  cells can reach the fallback filter and the browser; the model's `Value`
  has no list or object case.
- Fallback.PyStr: lists and dictionaries are not modelled, so their `str()`
  (for example "[1, 2]") never takes part in a key's test. When `pandasql`
  cannot see the table, the fallback may answer every query, so such cells
  matter in practice.
- Records.Lookup: a key that names an inherited `Object.prototype` member
  ("constructor", "toString", "valueOf", "__proto__") reads as undefined in
  the model, whereas JavaScript reads the inherited member.
- QueryPage.MissingKeyShowsDash: for the same reason a header such as
  "constructor" missing from a row shows '-' in the model, whereas the browser
  formats the inherited function. The chart labels and series lookups
  (`static/js/visualization.js:51-67`) share this gap.
- Summary.Summarize: an item is a sequence of entries and may list a key
  twice, while a Python dictionary never does; the field count is the number
  of entries of the first item, which is `len(keys)` for items with distinct
  keys.
- All DOM work, Chart.js construction and destruction, `createChart`,
  `renderChart`, clipboard, `setTimeout`, Blob download, speech recognition
  and keyboard shortcuts: host APIs with no stated contract.
- The history's HTML rendering (`updateHistoryDisplay`): presentation only.
  The history list itself is modelled.
- Overlapping requests: each click is settled before the next in
  `AppPage.Run`, since concurrency is not a point of this code.
- Fallback.FallbackFilter: a record value's `str()` for a float is carried
  as its text (`PFloat`), because Python's float formatting is not modelled.
- Fallback.FallbackFilter: records are dictionaries with string keys, and an
  exception inside the loop is not modelled.
- Summary.Summarize: the "Summary generation failed." branch is left out,
  because it cannot be reached for a list of dictionaries.
- Csv.CsvRoundTrip: a table with no rows gives the empty text, which reads
  back as one empty row, so the round trip is stated for non-empty tables.
  After a displayed result the table always has its header row.

## Findings

| source | as written | input that shows it | evidently intended | confidence | as-written member | corrected member |
|---|---|---|---|---|---|---|
| app.py:165-177 | the forbidden-keyword test runs on the raw text, and the clean-up then removes backticks | the reply "select d\`rop" passes the test and is returned as "select drop" | no accepted SQL mentions a data-changing keyword, so the test applies to the cleaned text | not executed | SqlGuard.AsWrittenLetsKeywordThrough | SqlGuard.GetSql |

=== FILE: app_page.dfy ===
/** The alternate page controller of static/app.js: a submit handler that
    disables its button while a request is in flight, a table renderer that
    places each row's values by position, and an append-only history of
    successful queries. The in-flight state is explicit: `Start` enters it
    and `Finish` leaves it. */
module AppPage {
  import opened Wrappers
  import opened Strings
  import opened Records
  import opened Protocol

  /** One history entry; `result` is `data.data` as received, possibly absent. */
  datatype HistoryEntry = HistoryEntry(query: string, result: Option<seq<Record>>, timestamp: int)

  datatype Page = Page(
    loadingShown: bool,
    buttonDisabled: bool,
    resultShown: bool,
    errorShown: bool,
    errorMessage: string,
    header: seq<string>,
    body: seq<seq<Value>>,
    history: seq<HistoryEntry>)

  const Initial := Page(false, false, false, false, "", [], [], [])

  /** `showError`: the message is visible and the result table hidden. */
  function ShowError(p: Page, message: string): (q: Page)
    ensures q.errorShown && !q.resultShown && q.errorMessage == message
    ensures q.history == p.history && q.buttonDisabled == p.buttonDisabled && q.loadingShown == p.loadingShown
  {
    p.(errorMessage := message, errorShown := true, resultShown := false)
  }

  /** `displayResults`: the header cells are the first record's raw keys;
      each body row is that row's own values in the row's own order. */
  function DisplayResults(p: Page, data: Option<seq<Record>>): (q: Page)
    ensures !HasRows(data) ==> q == ShowError(p, "No results found")
    ensures HasRows(data) ==>
      && q.resultShown && !q.errorShown
      && q.header == Keys(data.value[0])
      && |q.body| == |data.value|
      && (forall i :: 0 <= i < |data.value| ==> q.body[i] == Values(data.value[i]))
    ensures q.history == p.history && q.buttonDisabled == p.buttonDisabled && q.loadingShown == p.loadingShown
  {
    if !HasRows(data) then ShowError(p, "No results found")
    else
      var rows := data.value;
      p.(header := Keys(rows[0]),
         body := seq(|rows|, i requires 0 <= i < |rows| => Values(rows[i])),
         resultShown := true, errorShown := false)
  }

  /** `saveQuery`: one entry appended at the end. */
  function SaveQuery(history: seq<HistoryEntry>, query: string, result: Option<seq<Record>>, now: int)
    : (h: seq<HistoryEntry>)
    ensures |h| == |history| + 1 && h[..|history|] == history
    ensures h[|history|] == HistoryEntry(query, result, now)
  {
    history + [HistoryEntry(query, result, now)]
  }

  /** The first half of the click handler: reject blank input, or enter the
      in-flight state and return the query to send. */
  function Start(p: Page, input: string): (r: (Page, Option<string>))
    ensures r.1.None? <==> Trim(input, IsJsSpace) == ""
    ensures r.1.None? ==> r.0 == ShowError(p, "Please enter a query")
    ensures r.1.None? ==> r.0.buttonDisabled == p.buttonDisabled && r.0.loadingShown == p.loadingShown
    ensures r.1.Some? ==>
      && r.1.value == Trim(input, IsJsSpace)
      && r.0.buttonDisabled && r.0.loadingShown && !r.0.resultShown && !r.0.errorShown
    ensures r.0.history == p.history
  {
    var query := Trim(input, IsJsSpace);
    if query == "" then (ShowError(p, "Please enter a query"), None)
    else (p.(loadingShown := true, resultShown := false, errorShown := false, buttonDisabled := true), Some(query))
  }

  /** The reply counts as a success: `response.ok` and `data.success`. */
  predicate IsSuccess(reply: Reply) {
    reply.Http? && reply.ok && reply.body.Json? && reply.body.payload.success
  }

  /** The `try` block and its `catch`. Note the order: the body is decoded
      before `response.ok` is looked at. */
  function Receive(p: Page, query: string, reply: Reply, now: int): (q: Page)
    ensures IsSuccess(reply) ==>
      var data := reply.body.payload.data;
      q == DisplayResults(p, data).(history := SaveQuery(p.history, query, data, now))
    ensures reply.NetworkFailure? ==> q == ShowError(p, reply.message)
    ensures reply.Http? && reply.body.NotJson? ==> q == ShowError(p, reply.body.message)
    ensures reply.Http? && reply.body.Json? && !reply.ok ==>
      q == ShowError(p, OrElse(reply.body.payload.error, "Failed to execute query"))
    ensures reply.Http? && reply.body.Json? && reply.ok && !reply.body.payload.success ==>
      q == ShowError(p, OrElse(reply.body.payload.error, "Unknown error occurred"))
    ensures !IsSuccess(reply) ==> q.history == p.history && q.errorShown && !q.resultShown
    ensures q.errorShown != q.resultShown
  {
    match reply
    case NetworkFailure(m) => ShowError(p, m)
    case Http(ok, status, body) =>
      match body
      case NotJson(m) => ShowError(p, m)
      case Json(pl) =>
        if !ok then ShowError(p, OrElse(pl.error, "Failed to execute query"))
        else if pl.success then
          var shown := DisplayResults(p, pl.data);
          shown.(history := SaveQuery(shown.history, query, pl.data, now))
        else ShowError(p, OrElse(pl.error, "Unknown error occurred"))
  }

  /** The second half: settle the request, then the `finally` clause hides
      the indicator and re-enables the button whatever happened. */
  function Finish(p: Page, query: string, reply: Reply, now: int): (q: Page)
    ensures !q.buttonDisabled && !q.loadingShown
    ensures q.errorShown != q.resultShown
    ensures IsSuccess(reply) ==> q.history == p.history + [HistoryEntry(query, reply.body.payload.data, now)]
    ensures !IsSuccess(reply) ==> q.history == p.history
  {
    Receive(p, query, reply, now).(loadingShown := false, buttonDisabled := false)
  }

  /** One click on the submit button, `reply` being how its request settles
      and `now` the time `new Date()` reads. */
  function Submit(p: Page, input: string, reply: Reply, now: int): (r: (Page, Option<string>))
    ensures r.1.None? <==> Trim(input, IsJsSpace) == ""
    ensures r.1.None? ==> r.0 == ShowError(p, "Please enter a query")
    ensures r.1.Some? ==>
      && r.1.value == Trim(input, IsJsSpace)
      && !r.0.buttonDisabled && !r.0.loadingShown && r.0.errorShown != r.0.resultShown
    ensures r.0.history == p.history +
      (if r.1.Some? && IsSuccess(reply) then [HistoryEntry(r.1.value, reply.body.payload.data, now)] else [])
  {
    var (started, query) := Start(p, input);
    if query.None? then (started, None) else (Finish(started, query.value, reply, now), query)
  }

  /** A sequence of clicks, each with the reply its request gets. */
  datatype Click = Click(input: string, reply: Reply, time: int)

  function Run(p: Page, clicks: seq<Click>): Page
    decreases |clicks|
  {
    if |clicks| == 0 then p
    else Run(Step(p, clicks[0]), clicks[1..])
  }

  /** The entries a session should record: one per click with non-blank
      input whose reply is a success, in click order, even when the data is
      empty or missing. */
  function Successes(clicks: seq<Click>): seq<HistoryEntry> {
    if |clicks| == 0 then []
    else
      Recorded(clicks[0]) + Successes(clicks[1..])
  }

  /** The entry one click adds to the history, if any. */
  function Recorded(c: Click): seq<HistoryEntry> {
    var q := Trim(c.input, IsJsSpace);
    if q != "" && IsSuccess(c.reply) then [HistoryEntry(q, c.reply.body.payload.data, c.time)] else []
  }

  /** One click of a session. */
  function Step(p: Page, c: Click): Page {
    Submit(p, c.input, c.reply, c.time).0
  }

  lemma SubmitHistory(p: Page, c: Click)
    ensures Step(p, c).history == p.history + Recorded(c)
  {
  }

  /** The history only ever grows, by exactly the successful clicks: nothing
      is removed, reordered or deduplicated. */
  lemma {:induction false} HistoryRecordsSuccesses(p: Page, clicks: seq<Click>)
    ensures Run(p, clicks).history == p.history + Successes(clicks)
    decreases |clicks|
  {
    if |clicks| > 0 {
      var next := Step(p, clicks[0]);
      var rest := clicks[1..];
      HistoryRecordsSuccesses(next, rest);
      RunUnfold(p, clicks);
      SuccessesUnfold(clicks);
      SubmitHistory(p, clicks[0]);
      AppendAssoc(p.history, Recorded(clicks[0]), Successes(rest));
    }
  }

  lemma RunUnfold(p: Page, clicks: seq<Click>)
    requires |clicks| > 0
    ensures Run(p, clicks) == Run(Step(p, clicks[0]), clicks[1..])
  {
  }

  lemma SuccessesUnfold(clicks: seq<Click>)
    requires |clicks| > 0
    ensures Successes(clicks) == Recorded(clicks[0]) + Successes(clicks[1..])
  {
  }

  lemma AppendAssoc<T>(a: seq<T>, b: seq<T>, c: seq<T>)
    ensures (a + b) + c == a + (b + c)
  {
  }

  /** Rows that list their keys in the first row's order give the same cells
      whether placed by position (this renderer) or looked up by key (the
      renderer of static/js/query.js). */
  lemma PositionalAgreesWithKeyed(data: seq<Record>)
    requires |data| > 0
    requires forall i :: 0 <= i < |data| ==> Keys(data[i]) == Keys(data[0]) && DistinctKeys(data[i])
    ensures var q := DisplayResults(Initial, Some(data));
      forall i, j :: 0 <= i < |data| && 0 <= j < |q.header| ==>
        && j < |q.body[i]|
        && Lookup(data[i], q.header[j]) == Some(q.body[i][j])
  {
    var q := DisplayResults(Initial, Some(data));
    forall i, j | 0 <= i < |data| && 0 <= j < |q.header|
      ensures j < |q.body[i]| && Lookup(data[i], q.header[j]) == Some(q.body[i][j])
    {
      assert Keys(data[i])[j] == Keys(data[0])[j];
      LookupOwnKey(data[i], j);
    }
  }

  /** When a later row lists its keys in another order, the two renderers
      disagree: under header `a`, this one shows the row's first value. */
  lemma PositionalDiffersFromKeyed()
    ensures var data := [[Field("a", Num(1.0)), Field("b", Num(2.0))],
                         [Field("b", Num(3.0)), Field("a", Num(4.0))]];
      var q := DisplayResults(Initial, Some(data));
      && q.header[0] == "a"
      && q.body[1][0] == Num(3.0)
      && Lookup(data[1], "a") == Some(Num(4.0))
  {
    var data: seq<Record> := [[Field("a", Num(1.0)), Field("b", Num(2.0))],
                 [Field("b", Num(3.0)), Field("a", Num(4.0))]];
    assert data[1][1..][0].key == "a";
  }
}

=== FILE: csv.dfy ===
/** The CSV text `downloadResults` (static/js/query.js) builds from the
    rendered table: every field wrapped in '"' with embedded '"' doubled,
    fields joined by ',', rows joined by '\n'. A reader for that text is
    given as the partner of the writer. */
module Csv {
  import opened Wrappers
  import opened Strings

  /** `text.replace(/"/g, '""')`. */
  function DoubleQuotes(t: string): (r: string)
    ensures |r| >= |t|
  {
    if |t| == 0 then ""
    else (if t[0] == '"' then "\"\"" else [t[0]]) + DoubleQuotes(t[1..])
  }

  /** One CSV field: the cell text with quotes doubled, wrapped in quotes. */
  function EscapeField(t: string): (r: string)
    ensures |r| >= 2 && r[0] == '"' && r[|r| - 1] == '"'
  {
    "\"" + DoubleQuotes(t) + "\""
  }

  function EscapeRow(cells: seq<string>): (r: seq<string>)
    ensures |r| == |cells|
    ensures forall i :: 0 <= i < |cells| ==> r[i] == EscapeField(cells[i])
  {
    seq(|cells|, i requires 0 <= i < |cells| => EscapeField(cells[i]))
  }

  /** `rowData.join(',')`. */
  function Line(cells: seq<string>): string {
    Join(EscapeRow(cells), ",")
  }

  function Lines(rows: seq<seq<string>>): (r: seq<string>)
    ensures |r| == |rows|
    ensures forall i :: 0 <= i < |rows| ==> r[i] == Line(rows[i])
  {
    seq(|rows|, i requires 0 <= i < |rows| => Line(rows[i]))
  }

  /** `csv.join('\n')` over the table's rows, header row included. */
  function CsvText(rows: seq<seq<string>>): string {
    Join(Lines(rows), "\n")
  }

  // The reader.

  /** Reads the rest of a quoted field (the opening quote already consumed):
      '""' stands for one quote, a lone '"' closes the field. Returns the
      field text and what follows the closing quote. */
  function ReadQuoted(s: string): (r: Option<(string, string)>)
    ensures r.Some? ==> |r.value.1| < |s|
  {
    if |s| == 0 then None
    else if s[0] == '"' then
      if |s| >= 2 && s[1] == '"' then
        match ReadQuoted(s[2..])
        case None => None
        case Some((t, rest)) => Some(("\"" + t, rest))
      else Some(("", s[1..]))
    else
      match ReadQuoted(s[1..])
      case None => None
      case Some((t, rest)) => Some(([s[0]] + t, rest))
  }

  /** Strips the outer quotes of one field and un-doubles the inner ones. */
  function UnescapeField(f: string): Option<string> {
    if |f| > 0 && f[0] == '"' then
      match ReadQuoted(f[1..])
      case Some((t, rest)) => if rest == "" then Some(t) else None
      case None => None
    else None
  }

  /** Reads one or more ','-separated quoted fields. */
  function ReadFields(s: string): (r: Option<(seq<string>, string)>)
    ensures r.Some? ==> |r.value.1| < |s|
    decreases |s|
  {
    if |s| == 0 || s[0] != '"' then None
    else match ReadQuoted(s[1..])
      case None => None
      case Some((f, rest)) =>
        if |rest| > 0 && rest[0] == ',' then
          match ReadFields(rest[1..])
          case None => None
          case Some((fs, rest')) => Some(([f] + fs, rest'))
        else Some(([f], rest))
  }

  /** Reads one line: no field at all when it does not open with a quote. */
  function ReadLine(s: string): (r: Option<(seq<string>, string)>)
    ensures r.Some? ==> |r.value.1| <= |s|
  {
    if |s| > 0 && s[0] == '"' then ReadFields(s) else Some(([], s))
  }

  /** Reads a whole CSV text into its rows. */
  function ParseCsv(s: string): Option<seq<seq<string>>>
    decreases |s|
  {
    match ReadLine(s)
    case None => None
    case Some((fields, rest)) =>
      if rest == "" then Some([fields])
      else if rest[0] == '\n' then
        match ParseCsv(rest[1..])
        case None => None
        case Some(more) => Some([fields] + more)
      else None
  }

  lemma {:induction false} ReadQuotedDoubled(t: string, rest: string)
    requires |rest| == 0 || rest[0] != '"'
    ensures ReadQuoted(DoubleQuotes(t) + "\"" + rest) == Some((t, rest))
  {
    if |t| > 0 {
      ReadQuotedDoubled(t[1..], rest);
      ReadQuotedStep(t, rest);
    } else {
      assert DoubleQuotes(t) + "\"" + rest == "\"" + rest;
    }
  }

  /** One character of the field, given the reading of the rest. */
  lemma ReadQuotedStep(t: string, rest: string)
    requires |t| > 0
    requires ReadQuoted(DoubleQuotes(t[1..]) + "\"" + rest) == Some((t[1..], rest))
    ensures ReadQuoted(DoubleQuotes(t) + "\"" + rest) == Some((t, rest))
  {
    var s := DoubleQuotes(t) + "\"" + rest;
    var more := DoubleQuotes(t[1..]) + "\"" + rest;
    if t[0] == '"' {
      assert s == "\"\"" + more;
      assert s[2..] == more;
      assert "\"" + t[1..] == t;
    } else {
      assert s == [t[0]] + more;
      assert s[1..] == more;
      assert [t[0]] + t[1..] == t;
    }
  }

  /** Un-escaping an escaped field recovers the cell text. */
  lemma FieldRoundTrip(t: string)
    ensures UnescapeField(EscapeField(t)) == Some(t)
  {
    ReadQuotedDoubled(t, "");
    assert EscapeField(t)[1..] == DoubleQuotes(t) + "\"" + "";
  }

  /** The quoted text after the opening quote of an escaped field. */
  lemma ReadEscaped(c: string, rest: string)
    requires rest == "" || rest[0] != '"'
    ensures var s := EscapeField(c) + rest; |s| > 0 && s[0] == '"' && ReadQuoted(s[1..]) == Some((c, rest))
  {
    var s := EscapeField(c) + rest;
    assert s[1..] == DoubleQuotes(c) + "\"" + rest;
    ReadQuotedDoubled(c, rest);
  }

  /** An escaped field followed by no ',' is the last one read. */
  lemma ReadFieldsLast(c: string, rest: string)
    requires rest == "" || (rest[0] != '"' && rest[0] != ',')
    ensures ReadFields(EscapeField(c) + rest) == Some(([c], rest))
  {
    ReadEscaped(c, rest);
  }

  /** An escaped field followed by ',' is followed by more fields. */
  lemma ReadFieldsMore(c: string, more: string, cells: seq<string>, tail: string)
    requires ReadFields(more) == Some((cells, tail))
    ensures ReadFields(EscapeField(c) + ("," + more)) == Some(([c] + cells, tail))
  {
    ReadEscaped(c, "," + more);
    assert ("," + more)[1..] == more;
  }

  lemma LineCons(cells: seq<string>)
    requires |cells| > 1
    ensures Line(cells) == EscapeField(cells[0]) + ("," + Line(cells[1..]))
  {
    assert EscapeRow(cells)[1..] == EscapeRow(cells[1..]);
  }

  lemma {:induction false} ReadFieldsLine(cells: seq<string>, tail: string)
    requires |cells| > 0
    requires tail == "" || tail[0] == '\n'
    ensures ReadFields(Line(cells) + tail) == Some((cells, tail))
  {
    if |cells| > 1 {
      ReadFieldsLine(cells[1..], tail);
      ReadFieldsLineStep(cells, tail);
    } else {
      assert Line(cells) == EscapeField(cells[0]);
      ReadFieldsLast(cells[0], tail);
      assert cells == [cells[0]];
    }
  }

  /** The first cell of a longer line, given the reading of the others. */
  lemma ReadFieldsLineStep(cells: seq<string>, tail: string)
    requires |cells| > 1
    requires ReadFields(Line(cells[1..]) + tail) == Some((cells[1..], tail))
    ensures ReadFields(Line(cells) + tail) == Some((cells, tail))
  {
    var more := Line(cells[1..]) + tail;
    assert Line(cells) + tail == EscapeField(cells[0]) + ("," + more) by {
      LineCons(cells);
    }
    ReadFieldsMore(cells[0], more, cells[1..], tail);
    assert [cells[0]] + cells[1..] == cells;
  }

  lemma ReadLineLine(cells: seq<string>, tail: string)
    requires tail == "" || tail[0] == '\n'
    ensures ReadLine(Line(cells) + tail) == Some((cells, tail))
  {
    if |cells| > 0 {
      ReadFieldsLine(cells, tail);
    } else {
      assert Line(cells) + tail == tail;
    }
  }

  /** Reading the CSV text back gives the table's rows: one line per row and
      one field per cell, each with its original text. A table without rows
      yields the empty text, which reads as one empty row. */
  lemma {:induction false} CsvRoundTrip(rows: seq<seq<string>>)
    requires |rows| > 0
    ensures ParseCsv(CsvText(rows)) == Some(rows)
  {
    var lines := Lines(rows);
    if |rows| == 1 {
      ReadLineLine(rows[0], "");
      assert CsvText(rows) == Line(rows[0]) + "";
      assert rows == [rows[0]];
    } else {
      assert CsvText(rows) == Line(rows[0]) + ("\n" + CsvText(rows[1..])) by {
        assert lines[1..] == Lines(rows[1..]);
      }
      ReadLineLine(rows[0], "\n" + CsvText(rows[1..]));
      CsvRoundTrip(rows[1..]);
      assert ("\n" + CsvText(rows[1..]))[1..] == CsvText(rows[1..]);
      assert [rows[0]] + rows[1..] == rows;
    }
  }
}

=== FILE: fallback.dfy ===
/** The "simplified filtering" app.py falls back on when pandasql cannot run
    the generated SQL (`api_query`): the text between the first and second
    "where" of the lower-cased query is taken as the conditions, and a
    record is kept when each of its keys is either absent from the
    conditions or accompanied there by its value. */
module Fallback {
  import opened Wrappers
  import opened Strings

  /** A cell of a record as `DataFrame.to_dict(orient='records')` hands it
      over. A float carries the text Python's `repr` gives it. */
  datatype PyValue = PInt(i: int) | PFloat(repr: string) | PStr(s: string) | PBool(b: bool) | PNone

  datatype Entry = Entry(key: string, value: PyValue)

  /** A dictionary, its items in insertion order. */
  type Item = seq<Entry>

  /** Python's `str(value)`. */
  function PyStr(v: PyValue): string {
    match v
      case PInt(i) => IntToString(i)
      case PFloat(repr) => repr
      case PStr(s) => s
      case PBool(b) => if b then "True" else "False"
      case PNone => "None"
  }

  const Where: string := "where"

  /** Where the second piece of `s.split(p)` lies: it starts right after
      the first `p` and runs up to the next `p` to start after that, or to
      the end of the text. */
  function SecondPiece(s: string, p: string): (b: (nat, nat))
    requires |p| > 0 && Contains(s, p)
    ensures b.0 >= |p| && b.0 <= b.1 <= |s|
    ensures s[b.0 - |p|..b.0] == p
    ensures forall j :: 0 <= j < b.0 - |p| ==> !StartsWith(s[j..], p)
    ensures forall j :: b.0 <= j < b.1 ==> !StartsWith(s[j..], p)
    ensures b.1 == |s| || StartsWith(s[b.1..], p)
  {
    var i := FindFirst(s, p).value;
    var start := i + |p|;
    var e := UpToNext(s, p, start);
    (start, e)
  }

  /** The first index from `start` on at which `p` starts, or `|s|` when
      there is none. */
  function UpToNext(s: string, p: string, start: nat): (e: nat)
    requires start <= |s|
    ensures start <= e <= |s|
    ensures forall j :: start <= j < e ==> !StartsWith(s[j..], p)
    ensures e == |s| || StartsWith(s[e..], p)
    decreases |s| - start
  {
    if start == |s| || StartsWith(s[start..], p) then start
    else UpToNext(s, p, start + 1)
  }

  /** `sql_query.lower().split('where')[1].strip()`: stripped text in which
      "where" never starts. */
  function Conditions(lower: string): (cond: string)
    requires Contains(lower, Where)
    ensures |cond| > 0 ==> !IsPySpace(cond[0]) && !IsPySpace(cond[|cond| - 1])
    ensures forall j :: 0 <= j < |cond| ==> !StartsWith(cond[j..], Where)
  {
    var b := SecondPiece(lower, Where);
    var piece := lower[b.0..b.1];
    assert NoStartIn(lower, Where, b.0, b.0 + |piece|);
    SliceAvoids(lower, Where, b.0, piece);
    TrimmedAvoids(piece, Where, IsPySpace);
    Trim(piece, IsPySpace)
  }

  /** No occurrence of `p` starts in `s` at an index from `lo` up to `hi`. */
  predicate NoStartIn(s: string, p: string, lo: nat, hi: nat) {
    forall j :: lo <= j < hi && j <= |s| ==> !StartsWith(s[j..], p)
  }

  /** Stripping text in which `p` never starts leaves text in which `p`
      never starts. */
  lemma TrimmedAvoids(t: string, p: string, isSpace: char -> bool)
    requires NoStartIn(t, p, 0, |t|)
    ensures var r := Trim(t, isSpace); NoStartIn(r, p, 0, |r|)
  {
    var k := TrimIsSlice(t, isSpace);
    var r := Trim(t, isSpace);
    NoStartInNarrows(t, p, 0, |t|, k, k + |r|);
    SliceAvoids(t, p, k, r);
  }

  lemma NoStartInNarrows(s: string, p: string, lo: nat, hi: nat, a: nat, b: nat)
    requires lo <= a <= b <= hi && NoStartIn(s, p, lo, hi)
    ensures NoStartIn(s, p, a, b)
  {
  }

  /** A slice of `s` starting at `off` inherits `NoStartIn`. */
  lemma SliceAvoids(s: string, p: string, off: nat, r: string)
    requires off + |r| <= |s| && r == s[off..off + |r|]
    requires NoStartIn(s, p, off, off + |r|)
    ensures NoStartIn(r, p, 0, |r|)
  {
    forall j | 0 <= j < |r|
      ensures !StartsWith(r[j..], p)
    {
      SliceStart(s, p, off, r, j);
    }
  }

  lemma SliceStart(s: string, p: string, off: nat, r: string, j: nat)
    requires off + |r| <= |s| && r == s[off..off + |r|] && j < |r|
    ensures StartsWith(r[j..], p) ==> StartsWith(s[off + j..], p)
  {
    if |p| <= |r| - j {
      assert r[j..][..|p|] == s[off + j..][..|p|];
    }
  }

  /** One key's test: the key does not appear in the conditions, or the
      value does. A value the conditions mention always passes, and so
      does a key whose text is its value's. */
  predicate KeyPasses(e: Entry, cond: string)
    ensures Contains(cond, Lower(PyStr(e.value))) ==> KeyPasses(e, cond)
    ensures Lower(e.key) == Lower(PyStr(e.value)) ==> KeyPasses(e, cond)
  {
    !Contains(cond, Lower(e.key)) || Contains(cond, Lower(PyStr(e.value)))
  }

  predicate Keeps(item: Item, cond: string) {
    forall m :: 0 <= m < |item| ==> KeyPasses(item[m], cond)
  }

  /** The kept records, in their original order. */
  function Filtered(data: seq<Item>, cond: string): seq<Item> {
    if |data| == 0 then []
    else
      var last := data[|data| - 1];
      Filtered(data[..|data| - 1], cond) + (if Keeps(last, cond) then [last] else [])
  }

  /** The fallback as app.py runs it, loop for loop: all of the data when
      the query has no "where", else the records every key of which passes,
      the inner loop leaving an item at its first failing key. */
  method FallbackFilter(sqlQuery: string, data: seq<Item>) returns (results: seq<Item>)
    ensures !Contains(Lower(sqlQuery), Where) ==> results == data
    ensures Contains(Lower(sqlQuery), Where) ==> results == Filtered(data, Conditions(Lower(sqlQuery)))
  {
    var lower := Lower(sqlQuery);
    if !Contains(lower, Where) {
      return data;
    }
    results := FilterItems(data, Conditions(lower));
  }

  /** The outer loop: each item that matches is appended, in order. */
  method FilterItems(data: seq<Item>, cond: string) returns (results: seq<Item>)
    ensures results == Filtered(data, cond)
  {
    results := [];
    var i := 0;
    while i < |data|
      invariant 0 <= i <= |data|
      invariant results == Filtered(data[..i], cond)
    {
      var item := data[i];
      var match_ := ItemMatches(item, cond);
      assert data[..i + 1][..i] == data[..i];
      if match_ {
        results := results + [item];
      }
      i := i + 1;
    }
    assert data[..|data|] == data;
  }

  /** The inner loop: the keys are tried in order and the first one that
      fails ends the search. */
  method ItemMatches(item: Item, cond: string) returns (match_: bool)
    ensures match_ <==> Keeps(item, cond)
  {
    match_ := true;
    var j := 0;
    while j < |item| && match_
      invariant 0 <= j <= |item|
      invariant match_ <==> forall m :: 0 <= m < j ==> KeyPasses(item[m], cond)
      invariant !match_ ==> !Keeps(item, cond)
    {
      if Contains(cond, Lower(item[j].key)) && !Contains(cond, Lower(PyStr(item[j].value))) {
        match_ := false;
      }
      j := j + 1;
    }
  }

  // Properties of the reference filter.

  lemma {:induction false} FilteredLength(data: seq<Item>, cond: string)
    ensures |Filtered(data, cond)| <= |data|
  {
    if |data| > 0 {
      FilteredLength(data[..|data| - 1], cond);
    }
  }

  /** A record is in the result exactly when it is in the data and kept. */
  lemma {:induction false} FilteredMembers(data: seq<Item>, cond: string, x: Item)
    ensures x in Filtered(data, cond) <==> x in data && Keeps(x, cond)
  {
    if |data| > 0 {
      var init := data[..|data| - 1];
      FilteredMembers(init, cond, x);
      assert data == init + [data[|data| - 1]];
    }
  }

  /** Filtering distributes over concatenation, so the records that remain
      keep their relative order. */
  lemma {:induction false} FilteredAppend(a: seq<Item>, b: seq<Item>, cond: string)
    ensures Filtered(a + b, cond) == Filtered(a, cond) + Filtered(b, cond)
    decreases |b|
  {
    if |b| > 0 {
      var b' := b[..|b| - 1];
      assert (a + b)[..|a + b| - 1] == a + b';
      FilteredAppend(a, b', cond);
    } else {
      assert a + b == a;
    }
  }

  /** Filtering twice with the same conditions changes nothing more. */
  lemma {:induction false} FilteredIdempotent(data: seq<Item>, cond: string)
    ensures Filtered(Filtered(data, cond), cond) == Filtered(data, cond)
  {
    if |data| > 0 {
      var init := data[..|data| - 1];
      var last := data[|data| - 1];
      FilteredIdempotent(init, cond);
      var tail := if Keeps(last, cond) then [last] else [];
      FilteredAppend(Filtered(init, cond), tail, cond);
      if Keeps(last, cond) {
        assert Filtered(tail, cond) == Filtered([], cond) + [last];
      }
    }
  }

  /** When every record passes, the fallback returns the data unchanged. */
  lemma {:induction false} FilteredAll(data: seq<Item>, cond: string)
    requires forall k :: 0 <= k < |data| ==> Keeps(data[k], cond)
    ensures Filtered(data, cond) == data
  {
    if |data| > 0 {
      FilteredAll(data[..|data| - 1], cond);
    }
  }
}

=== FILE: format.dfy ===
/** The cell and header formatters of static/js/query.js. */
module Format {
  import opened Wrappers
  import opened Strings
  import opened Records

  /** `header.split('_')`: always at least one piece; the empty string
      gives one empty piece and every '_' starts a new piece. */
  function SplitUnderscore(s: string): (parts: seq<string>)
    ensures |parts| >= 1
  {
    if |s| == 0 then [""]
    else if s[0] == '_' then [""] + SplitUnderscore(s[1..])
    else
      var rest := SplitUnderscore(s[1..]);
      [[s[0]] + rest[0]] + rest[1..]
  }

  /** `word.charAt(0).toUpperCase() + word.slice(1)`. */
  function Capitalize(w: string): string {
    if |w| == 0 then w else [UpperChar(w[0])] + w[1..]
  }

  function CapitalizeAll(parts: seq<string>): (r: seq<string>)
    ensures |r| == |parts|
    ensures forall i :: 0 <= i < |parts| ==> r[i] == Capitalize(parts[i])
  {
    seq(|parts|, i requires 0 <= i < |parts| => Capitalize(parts[i]))
  }

  /** The character `formatHeader` puts at position `i` of its output:
      '_' becomes a space, the first character of each piece is
      upper-cased, everything else is kept. */
  function HeaderChar(s: string, i: nat): char
    requires i < |s|
  {
    if s[i] == '_' then ' '
    else if i == 0 || s[i - 1] == '_' then UpperChar(s[i])
    else s[i]
  }

  /** `formatHeader`: snake_case to space-separated capitalised words. */
  function FormatHeader(s: string): (r: string)
    ensures |r| == |s|
    ensures forall i :: 0 <= i < |s| ==> r[i] == HeaderChar(s, i)
    ensures forall i :: 0 <= i < |r| ==> r[i] != '_'
  {
    var r := Join(CapitalizeAll(SplitUnderscore(s)), " ");
    HeaderSpecIsFormatHeader(s);
    HeaderSpecPointwise(s, true);
    assert forall i :: 0 <= i < |s| ==> SpecChar(s, i, true) == HeaderChar(s, i);
    r
  }

  /** The header text built character by character; `atStart` tells whether
      the first character begins a piece. */
  function HeaderSpec(s: string, atStart: bool): string {
    if |s| == 0 then ""
    else if s[0] == '_' then " " + HeaderSpec(s[1..], true)
    else [if atStart then UpperChar(s[0]) else s[0]] + HeaderSpec(s[1..], false)
  }

  /** Position `i` of `HeaderSpec(s, atStart)`. */
  function SpecChar(s: string, i: nat, atStart: bool): char
    requires i < |s|
  {
    if s[i] == '_' then ' '
    else if (i == 0 && atStart) || (i > 0 && s[i - 1] == '_') then UpperChar(s[i])
    else s[i]
  }

  lemma {:induction false} HeaderSpecPointwise(s: string, atStart: bool)
    ensures |HeaderSpec(s, atStart)| == |s|
    ensures forall i :: 0 <= i < |s| ==> HeaderSpec(s, atStart)[i] == SpecChar(s, i, atStart)
  {
    if |s| > 0 {
      var t := s[1..];
      HeaderSpecPointwise(t, s[0] == '_');
      var h := HeaderSpec(s, atStart);
      forall i | 0 < i < |s| ensures h[i] == SpecChar(s, i, atStart) {
        assert h[i] == HeaderSpec(t, s[0] == '_')[i - 1];
        assert t[i - 1] == s[i];
        if i > 1 {
          assert t[i - 2] == s[i - 1];
        }
      }
    }
  }

  /** The pieces after the first, capitalised and joined, preceded by the
      first piece left as it is. */
  function JoinKeepingFirst(parts: seq<string>): string
    requires |parts| >= 1
  {
    parts[0] + (if |parts| > 1 then " " + Join(CapitalizeAll(parts[1..]), " ") else "")
  }

  lemma JoinCapitalized(parts: seq<string>)
    requires |parts| >= 1
    ensures Join(CapitalizeAll(parts), " ") == JoinKeepingFirst([Capitalize(parts[0])] + parts[1..])
  {
    var c := CapitalizeAll(parts);
    if |parts| > 1 {
      assert c[1..] == CapitalizeAll(parts[1..]);
    }
  }

  /** Splitting, capitalising and joining agree with the character-wise
      description, both with the first piece capitalised and without. */
  lemma {:induction false} SplitJoinIsHeaderSpec(s: string)
    ensures Join(CapitalizeAll(SplitUnderscore(s)), " ") == HeaderSpec(s, true)
    ensures JoinKeepingFirst(SplitUnderscore(s)) == HeaderSpec(s, false)
  {
    JoinCapitalized(SplitUnderscore(s));
    if |s| > 0 {
      SplitJoinIsHeaderSpec(s[1..]);
      if s[0] == '_' {
        SplitJoinUnderscore(s);
      } else {
        SplitJoinLetter(s);
      }
    }
  }

  /** The step of `SplitJoinIsHeaderSpec` for a leading '_'. */
  lemma SplitJoinUnderscore(s: string)
    requires |s| > 0 && s[0] == '_'
    requires Join(CapitalizeAll(SplitUnderscore(s[1..])), " ") == HeaderSpec(s[1..], true)
    ensures JoinKeepingFirst(SplitUnderscore(s)) == HeaderSpec(s, false)
    ensures Join(CapitalizeAll(SplitUnderscore(s)), " ") == HeaderSpec(s, true)
  {
    var parts := SplitUnderscore(s);
    var rest := SplitUnderscore(s[1..]);
    assert parts == [""] + rest;
    assert parts[1..] == rest;
    JoinCapitalized(parts);
    JoinCapitalized(rest);
  }

  /** The step of `SplitJoinIsHeaderSpec` for any other first character. */
  lemma SplitJoinLetter(s: string)
    requires |s| > 0 && s[0] != '_'
    requires JoinKeepingFirst(SplitUnderscore(s[1..])) == HeaderSpec(s[1..], false)
    ensures JoinKeepingFirst(SplitUnderscore(s)) == HeaderSpec(s, false)
    ensures Join(CapitalizeAll(SplitUnderscore(s)), " ") == HeaderSpec(s, true)
  {
    var parts := SplitUnderscore(s);
    var rest := SplitUnderscore(s[1..]);
    assert parts[0] == [s[0]] + rest[0] && parts[1..] == rest[1..];
    assert JoinKeepingFirst(parts) == [s[0]] + JoinKeepingFirst(rest) by {
      KeepingFirstCons(s[0], rest, parts);
    }
    assert JoinKeepingFirst([Capitalize(parts[0])] + parts[1..]) == [UpperChar(s[0])] + JoinKeepingFirst(rest) by {
      assert Capitalize(parts[0]) == [UpperChar(s[0])] + rest[0];
      KeepingFirstCons(UpperChar(s[0]), rest, [Capitalize(parts[0])] + parts[1..]);
    }
    JoinCapitalized(parts);
  }

  /** Prefixing a character to the first piece prefixes it to the text. */
  lemma KeepingFirstCons(c: char, rest: seq<string>, parts: seq<string>)
    requires |rest| >= 1 && |parts| == |rest|
    requires parts[0] == [c] + rest[0] && parts[1..] == rest[1..]
    ensures JoinKeepingFirst(parts) == [c] + JoinKeepingFirst(rest)
  {
  }

  lemma HeaderSpecIsFormatHeader(s: string)
    ensures Join(CapitalizeAll(SplitUnderscore(s)), " ") == HeaderSpec(s, true)
  {
    SplitJoinIsHeaderSpec(s);
  }

  /** Date-only rendering of a value: `new Date(value).toLocaleDateString()`
      and the number rendering of `toLocaleString('en-US', ...)` depend on the
      host's locale and are left as parameters. */
  datatype Locale = Locale(number: real -> string, date: Value -> string)

  /** The text starts with `YYYY-MM-DD`: `/^\d{4}-\d{2}-\d{2}/`. */
  predicate DatePrefixed(s: string) {
    && |s| >= 10
    && IsDigit(s[0]) && IsDigit(s[1]) && IsDigit(s[2]) && IsDigit(s[3]) && s[4] == '-'
    && IsDigit(s[5]) && IsDigit(s[6]) && s[7] == '-' && IsDigit(s[8]) && IsDigit(s[9])
  }

  /** `formatValue` of a looked-up cell; `None` is `undefined`. */
  function FormatValue(v: Option<Value>, loc: Locale): (r: string)
    ensures v.None? || v == Some(Null) ==> r == "-"
    ensures v.Some? && v.value.Str? && !DatePrefixed(v.value.s) ==> r == v.value.s
    ensures v.Some? && v.value.Bool? ==> r == (if v.value.b then "true" else "false")
    ensures v.Some? && v.value.Num? ==> r == loc.number(v.value.n)
    ensures v.Some? && (v.value.Date? || (v.value.Str? && DatePrefixed(v.value.s))) ==> r == loc.date(v.value)
  {
    match v
    case None => "-"
    case Some(Null) => "-"
    case Some(Num(n)) => loc.number(n)
    case Some(Date(t)) => loc.date(Date(t))
    case Some(Str(s)) => if DatePrefixed(s) then loc.date(Str(s)) else s
    case Some(Bool(b)) => if b then "true" else "false"
  }
}

=== FILE: protocol.dfy ===
/** The answer of `POST /api/query` as the browser code receives it. */
module Protocol {
  import opened Wrappers
  import opened Records

  /** The decoded JSON object; a field the server left out is `None`, and a
      missing `success` reads as false. */
  datatype Payload = Payload(
    success: bool,
    error: Option<string>,
    data: Option<seq<Record>>,
    sqlQuery: Option<string>)

  /** The body as `response.json()` sees it: a payload, or text that is not
      JSON, which makes `response.json()` throw with the given message. */
  datatype Body = Json(payload: Payload) | NotJson(message: string)

  /** The settled `fetch`: a rejection with its message, or a response with
      its `ok` flag, status code and body. */
  datatype Reply = NetworkFailure(message: string) | Http(ok: bool, status: nat, body: Body)

  /** `e || fallback` in JavaScript: a missing or empty string is falsy. */
  function OrElse(e: Option<string>, fallback: string): string {
    if e.Some? && e.value != "" then e.value else fallback
  }

  /** Data that `data && data.length > 0` accepts. */
  predicate HasRows(data: Option<seq<Record>>) {
    data.Some? && |data.value| > 0
  }
}

=== FILE: query_page.dfy ===
/** The query page controller of static/js/query.js: `executeQuery`, the
    key-lookup table renderer `displayResults`, `showError` and the CSV
    export `downloadResults`. The page is an immutable value; every handler
    maps a page to the next one. */
module QueryPage {
  import opened Wrappers
  import opened Strings
  import opened Records
  import opened Protocol
  import Format
  import Csv

  /** What the page shows. `tableRows` holds the text of every `<tr>` of the
      results table, header row first. */
  datatype Page = Page(
    loadingShown: bool,
    errorShown: bool,
    errorMessage: string,
    resultsShown: bool,
    sqlShown: bool,
    sqlText: string,
    tableShown: bool,
    tableRows: seq<seq<string>>)

  /** `showError`: the message is visible and the results are hidden. */
  function ShowError(p: Page, message: string): (q: Page)
    ensures q.errorShown && q.errorMessage == message && !q.resultsShown
    ensures q.loadingShown == p.loadingShown && q.tableRows == p.tableRows && q.tableShown == p.tableShown
    ensures q.sqlShown == p.sqlShown && q.sqlText == p.sqlText
  {
    p.(errorMessage := message, errorShown := true, resultsShown := false)
  }

  /** The table `displayResults` renders for non-empty data: the header row
      holds the first record's keys, formatted; each body row holds, for the
      same keys in the same order, the row's value under that key. */
  function RenderTable(data: seq<Record>, loc: Format.Locale): (rows: seq<seq<string>>)
    requires |data| > 0
    ensures |rows| == |data| + 1
    ensures forall i :: 0 <= i < |rows| ==> |rows[i]| == |data[0]|
    ensures forall j :: 0 <= j < |data[0]| ==> rows[0][j] == Format.FormatHeader(data[0][j].key)
    ensures forall i, j :: 0 <= i < |data| && 0 <= j < |data[0]| ==>
      rows[i + 1][j] == Format.FormatValue(Lookup(data[i], data[0][j].key), loc)
  {
    var headers := Keys(data[0]);
    var headerRow := seq(|headers|, j requires 0 <= j < |headers| => Format.FormatHeader(headers[j]));
    var body := seq(|data|, i requires 0 <= i < |data| =>
      seq(|headers|, j requires 0 <= j < |headers| => Format.FormatValue(Lookup(data[i], headers[j]), loc)));
    [headerRow] + body
  }

  /** A key a row does not have is shown as '-'. */
  lemma MissingKeyShowsDash(data: seq<Record>, loc: Format.Locale, i: nat, j: nat)
    requires |data| > 0 && i < |data| && j < |data[0]|
    requires data[0][j].key !in Keys(data[i])
    ensures RenderTable(data, loc)[i + 1][j] == "-"
  {
  }

  /** `displayResults`: missing or empty data is reported as an error;
      otherwise the table is replaced, not appended to. */
  function DisplayResults(p: Page, data: Option<seq<Record>>, loc: Format.Locale): (q: Page)
    ensures !HasRows(data) ==> q == ShowError(p, "No results found")
    ensures HasRows(data) ==> q.tableShown && q.tableRows == RenderTable(data.value, loc)
  {
    if !HasRows(data) then ShowError(p, "No results found")
    else p.(tableRows := RenderTable(data.value, loc), tableShown := true)
  }

  /** How one submission of the query box ends, classified from the input
      and the reply alone. */
  datatype Outcome =
    | Blank
    | Failed(message: string)
    | NoResults(sql: Option<string>)
    | Results(sql: Option<string>, data: seq<Record>)

  function Classify(input: string, reply: Reply): Outcome {
    if Trim(input, IsJsSpace) == "" then Blank else ClassifyReply(reply)
  }

  function ClassifyReply(reply: Reply): (o: Outcome)
    ensures !o.Blank?
    ensures o.Results? ==> |o.data| > 0
  {
    match reply
      case NetworkFailure(m) => Failed(m)
      case Http(ok, status, body) =>
        if !ok then Failed("HTTP error! status: " + NatToString(status))
        else match body
          case NotJson(m) => Failed(m)
          case Json(pl) =>
            if !pl.success then Failed(OrElse(pl.error, "Failed to execute query"))
            else if HasRows(pl.data) then Results(pl.sqlQuery, pl.data.value)
            else NoResults(pl.sqlQuery)
  }

  /** The text the SQL element shows: `textContent = undefined` shows the
      empty string. */
  function SqlText(sql: Option<string>): string {
    if sql.Some? then sql.value else ""
  }

  /** The `try` block of `executeQuery` and its `catch`, on a page already
      in the loading state. */
  function Receive(p: Page, reply: Reply, loc: Format.Locale): (q: Page)
    ensures !p.errorShown ==> q.errorShown != q.resultsShown
    ensures ClassifyReply(reply).Failed? ==>
      q.errorShown && q.errorMessage == ClassifyReply(reply).message
    ensures ClassifyReply(reply).Failed? ==> q == ShowError(p, ClassifyReply(reply).message)
    ensures ClassifyReply(reply).NoResults? ==>
      q == ShowError(p.(sqlText := SqlText(ClassifyReply(reply).sql), sqlShown := true), "No results found for your query")
    ensures ClassifyReply(reply).NoResults? ==>
      && q.errorShown && q.errorMessage == "No results found for your query"
      && q.sqlShown && q.sqlText == SqlText(ClassifyReply(reply).sql) && q.tableRows == p.tableRows
    ensures ClassifyReply(reply).Results? ==>
      && q.resultsShown && q.errorShown == p.errorShown
      && q.sqlShown && q.sqlText == SqlText(ClassifyReply(reply).sql)
      && q.tableRows == RenderTable(ClassifyReply(reply).data, loc)
  {
    match reply
    case NetworkFailure(m) => ShowError(p, m)
    case Http(ok, status, body) =>
      if !ok then ShowError(p, "HTTP error! status: " + NatToString(status))
      else match body
        case NotJson(m) => ShowError(p, m)
        case Json(pl) =>
          if pl.success then
            var p1 := p.(sqlText := SqlText(pl.sqlQuery), sqlShown := true);
            if HasRows(pl.data) then DisplayResults(p1, pl.data, loc).(resultsShown := true)
            else ShowError(p1, "No results found for your query")
          else ShowError(p, OrElse(pl.error, "Failed to execute query"))
  }

  /** `executeQuery`: returns the next page and the query text sent to the
      server, if a request was made; `reply` is how that request settles.
      `ExecuteQueryOutcome` states what the page then shows. */
  function ExecuteQuery(p: Page, input: string, reply: Reply, loc: Format.Locale): (r: (Page, Option<string>))
    ensures r.1.None? <==> Classify(input, reply) == Blank
    ensures r.1.None? ==> r.0 == ShowError(p, "Please enter a query")
    ensures r.1.Some? ==> r.1.value == Trim(input, IsJsSpace) && r.1.value != "" && !r.0.loadingShown
  {
    var query := Trim(input, IsJsSpace);
    if query == "" then (ShowError(p, "Please enter a query"), None)
    else
      var loading := p.(loadingShown := true, errorShown := false, resultsShown := false);
      // The `finally` clause hides the loading indicator on every exit.
      (Receive(loading, reply, loc).(loadingShown := false), Some(query))
  }

  /** What the page shows once a request has settled: exactly one of the
      error and the results, the error message or rendered table the reply
      calls for, and on an empty result the previous table left in place. */
  lemma ExecuteQueryOutcome(p: Page, input: string, reply: Reply, loc: Format.Locale)
    ensures var r := ExecuteQuery(p, input, reply, loc);
      r.1.Some? ==> r.0.errorShown != r.0.resultsShown
    ensures var r := ExecuteQuery(p, input, reply, loc); var o := Classify(input, reply);
      o.Failed? ==> r.0.errorShown && r.0.errorMessage == o.message
    ensures var r := ExecuteQuery(p, input, reply, loc); var o := Classify(input, reply);
      o.Failed? ==> r.0 == ShowError(p, o.message).(loadingShown := false)
    ensures var r := ExecuteQuery(p, input, reply, loc); var o := Classify(input, reply);
      o.NoResults? ==>
        && r.0.errorShown && r.0.errorMessage == "No results found for your query"
        && r.0.sqlShown && r.0.sqlText == SqlText(o.sql) && r.0.tableRows == p.tableRows
    ensures var r := ExecuteQuery(p, input, reply, loc); var o := Classify(input, reply);
      o.Results? ==>
        && r.0.resultsShown && !r.0.errorShown && r.0.sqlShown && r.0.sqlText == SqlText(o.sql)
        && r.0.tableRows == RenderTable(o.data, loc)
  {
    if Trim(input, IsJsSpace) != "" {
      var loading := p.(loadingShown := true, errorShown := false, resultsShown := false);
      var q := Receive(loading, reply, loc);
      assert ExecuteQuery(p, input, reply, loc).0 == q.(loadingShown := false);
      assert Classify(input, reply) == ClassifyReply(reply);
    }
  }

  /** `downloadResults`: the CSV text of every row of the results table,
      which reads back as those rows, cell for cell. */
  function DownloadResults(p: Page): (text: string)
    ensures |p.tableRows| > 0 ==> Csv.ParseCsv(text) == Some(p.tableRows)
  {
    var text := Csv.CsvText(p.tableRows);
    if |p.tableRows| > 0 then Csv.CsvRoundTrip(p.tableRows); text else text
  }

  /** After a query that displayed results, the exported CSV reads back as
      the rendered table: the formatted header row, then one line per
      record with one field per header cell. */
  lemma ExportAfterResults(p: Page, input: string, reply: Reply, loc: Format.Locale)
    requires Classify(input, reply).Results?
    ensures var data := Classify(input, reply).data;
      Csv.ParseCsv(DownloadResults(ExecuteQuery(p, input, reply, loc).0)) == Some(RenderTable(data, loc))
  {
    ExecuteQueryOutcome(p, input, reply, loc);
  }
}

=== FILE: records.dfy ===
/** Result records as the browser holds them after `response.json()`, and
    the number coercion behind JavaScript's global `isNaN`, which the chart
    advisor uses to tell numeric columns from categorical ones. */
module Records {
  import opened Wrappers
  import opened Strings

  /** One cell of a result record. `Date` stands for a Date instance with a
      valid time value; a JSON payload never contains one, since `JSON.parse`
      only builds numbers, strings, booleans, null, arrays and objects. */
  datatype Value = Num(n: real) | Str(s: string) | Null | Bool(b: bool) | Date(time: int)

  datatype Field = Field(key: string, value: Value)

  /** A record as an ordered list of properties, in the order `Object.keys`
      and `Object.values` report them. */
  type Record = seq<Field>

  function Keys(r: Record): (ks: seq<string>)
    ensures |ks| == |r|
    ensures forall i :: 0 <= i < |r| ==> ks[i] == r[i].key
  {
    seq(|r|, i requires 0 <= i < |r| => r[i].key)
  }

  /** `Object.values(r)`. */
  function Values(r: Record): (vs: seq<Value>)
    ensures |vs| == |r|
    ensures forall i :: 0 <= i < |r| ==> vs[i] == r[i].value
  {
    seq(|r|, i requires 0 <= i < |r| => r[i].value)
  }

  /** A JavaScript object never holds two properties with one key. */
  predicate DistinctKeys(r: Record) {
    forall i, j :: 0 <= i < j < |r| ==> r[i].key != r[j].key
  }

  /** `r[k]`: the value stored under `k`, or `None` for `undefined`. */
  function Lookup(r: Record, k: string): (v: Option<Value>)
    ensures v.None? <==> k !in Keys(r)
  {
    if |r| == 0 then None
    else if r[0].key == k then Some(r[0].value)
    else
      assert Keys(r) == [r[0].key] + Keys(r[1..]);
      Lookup(r[1..], k)
  }

  /** In an object with distinct keys, looking a key up finds its own property. */
  lemma {:induction false} LookupOwnKey(r: Record, i: nat)
    requires DistinctKeys(r) && i < |r|
    ensures Lookup(r, r[i].key) == Some(r[i].value)
  {
    if i > 0 {
      LookupOwnKey(r[1..], i - 1);
    }
  }

  /** A looked-up value is the value of one of the record's properties. */
  lemma {:induction false} LookupFindsAField(r: Record, k: string) returns (i: nat)
    requires Lookup(r, k).Some?
    ensures i < |r| && r[i].key == k && r[i].value == Lookup(r, k).value
  {
    if r[0].key == k {
      i := 0;
    } else {
      var j := LookupFindsAField(r[1..], k);
      i := j + 1;
    }
  }

  // The grammar StringNumericLiteral of ECMA-262 (section 7.1.4.1), which
  // decides whether `Number(s)` is NaN for a string `s`.

  predicate IsDecimalDigits(s: string) {
    |s| > 0 && AllDigits(s)
  }

  predicate IsDot(c: char) {
    c == '.'
  }

  predicate IsExponentMark(c: char) {
    c == 'e' || c == 'E'
  }

  /** `1`, `1.`, `1.5` or `.5`. */
  predicate IsMantissa(s: string) {
    var d := FirstIndex(s, IsDot);
    if d == |s| then IsDecimalDigits(s)
    else AllDigits(s[..d]) && AllDigits(s[d + 1..]) && (d > 0 || d + 1 < |s|)
  }

  /** `e5`, `E+5`, `e-5`. */
  predicate IsExponentPart(s: string) {
    && |s| >= 2 && (s[0] == 'e' || s[0] == 'E')
    && (IsDecimalDigits(s[1..]) || ((s[1] == '+' || s[1] == '-') && IsDecimalDigits(s[2..])))
  }

  predicate IsUnsignedDecimal(s: string) {
    || s == "Infinity"
    || var e := FirstIndex(s, c => c == 'e' || c == 'E');
       IsMantissa(s[..e]) && (e == |s| || IsExponentPart(s[e..]))
  }

  predicate IsDecimalLiteral(s: string) {
    || IsUnsignedDecimal(s)
    || (|s| > 0 && (s[0] == '+' || s[0] == '-') && IsUnsignedDecimal(s[1..]))
  }

  predicate IsHexDigit(c: char) {
    IsDigit(c) || 'a' <= c <= 'f' || 'A' <= c <= 'F'
  }

  /** `0x1F`, `0o17`, `0b101`: no sign allowed. */
  predicate IsNonDecimalInteger(s: string) {
    && |s| >= 3 && s[0] == '0'
    && (|| ((s[1] == 'x' || s[1] == 'X') && forall i :: 2 <= i < |s| ==> IsHexDigit(s[i]))
        || ((s[1] == 'o' || s[1] == 'O') && forall i :: 2 <= i < |s| ==> '0' <= s[i] <= '7')
        || ((s[1] == 'b' || s[1] == 'B') && forall i :: 2 <= i < |s| ==> s[i] == '0' || s[i] == '1'))
  }

  /** `Number(s)` is not NaN: after trimming, the text is empty (which
      converts to 0) or a numeric literal. So a numeric string, trimmed,
      begins with a digit, a sign, a dot or the "I" of "Infinity". */
  predicate IsNumericString(s: string)
    ensures IsNumericString(s) ==>
      var t := Trim(s, IsJsSpace);
      t == "" || IsDigit(t[0]) || t[0] == '+' || t[0] == '-' || t[0] == '.' || t[0] == 'I'
  {
    var t := Trim(s, IsJsSpace);
    LiteralStart(t);
    t == "" || IsDecimalLiteral(t) || IsNonDecimalInteger(t)
  }

  lemma LiteralStart(t: string)
    ensures IsDecimalLiteral(t) || IsNonDecimalInteger(t) ==>
      |t| > 0 && (IsDigit(t[0]) || t[0] == '+' || t[0] == '-' || t[0] == '.' || t[0] == 'I')
  {
    if IsUnsignedDecimal(t) && t != "Infinity" {
      var e := FirstIndex(t, c => c == 'e' || c == 'E');
      MantissaStart(t[..e]);
    }
  }

  /** A mantissa begins with a digit or a dot. */
  lemma MantissaStart(m: string)
    ensures IsMantissa(m) ==> |m| > 0 && (IsDigit(m[0]) || m[0] == '.')
  {
  }

  /** `!isNaN(v)`: null, booleans and Date instances convert to numbers, a
      string only when it spells one; a blank string converts to 0. */
  predicate NumericLike(v: Value)
    ensures !v.Str? ==> NumericLike(v)
    ensures v.Str? && Trim(v.s, IsJsSpace) == "" ==> NumericLike(v)
  {
    match v
    case Num(_) => true
    case Str(s) => IsNumericString(s)
    case Null => true
    case Bool(_) => true
    case Date(_) => true
  }

  /** `isNaN(r[k])` for a looked-up property; `undefined` converts to NaN. */
  predicate IsNaN(v: Option<Value>) {
    v.None? || !NumericLike(v.value)
  }

  /** A string of decimal digits is numeric-like. */
  lemma DigitStringIsNumeric(s: string)
    requires IsDecimalDigits(s)
    ensures NumericLike(Str(s))
  {
    DigitsTrimmed(s);
    DigitsAreDecimal(s);
  }

  lemma DigitsTrimmed(s: string)
    requires IsDecimalDigits(s)
    ensures Trim(s, IsJsSpace) == s
  {
    assert !IsJsSpace(s[0]) && !IsJsSpace(s[|s| - 1]);
  }

  lemma DigitsAreDecimal(s: string)
    requires IsDecimalDigits(s)
    ensures IsUnsignedDecimal(s)
  {
    NoneFound(s, IsExponentMark);
    NoneFound(s, IsDot);
    assert s[..|s|] == s;
  }

  /** `FirstIndex` finds nothing in a string of digits. */
  lemma NoneFound(s: string, p: char -> bool)
    requires AllDigits(s)
    requires forall c :: IsDigit(c) ==> !p(c)
    ensures FirstIndex(s, p) == |s|
  {
  }

  /** A string holding a letter other than those of a numeric literal is
      categorical; month names, for example. */
  lemma WordIsNotNumeric(s: string)
    requires s == "Jan"
    ensures !NumericLike(Str(s))
  {
    JanTrimmed(s);
    JanNotMantissa(s);
    JanNotDecimal(s);
  }

  lemma JanTrimmed(s: string)
    requires s == "Jan"
    ensures Trim(s, IsJsSpace) == s
  {
    assert !IsJsSpace(s[0]) && !IsJsSpace(s[2]);
  }

  lemma JanNotMantissa(s: string)
    requires s == "Jan"
    ensures !IsMantissa(s)
  {
    assert FirstIndex(s, IsDot) == 3;
    assert !IsDigit(s[0]);
  }

  lemma JanNotDecimal(s: string)
    requires s == "Jan"
    requires !IsMantissa(s)
    ensures !IsUnsignedDecimal(s)
  {
    assert FirstIndex(s, IsExponentMark) == 3;
    assert s[..3] == s;
    assert s != "Infinity";
  }
}

=== FILE: sql_guard.dfy ===
/** How app.py turns a question into SQL (`get_sql_from_gemini`): a query
    already stored with the loaded data is returned as stored; otherwise the
    language model's text is checked (no data-changing keyword, must start
    with SELECT) and cleaned up. The model's reply is a parameter: its text,
    or the message of the exception the call raised. */
module SqlGuard {
  import opened Wrappers
  import opened Strings

  /** Keywords whose presence anywhere in the lower-cased text, inside an
      identifier included, rejects it. */
  const ForbiddenWords: seq<string> := ["insert", "update", "delete", "drop", "truncate", "alter"]

  predicate MentionsForbiddenWord(lower: string) {
    exists k :: 0 <= k < |ForbiddenWords| && Contains(lower, ForbiddenWords[k])
  }

  /** Every error leaves the function with this prefix. */
  const ErrorPrefix: string := "Error generating SQL query: "

  /** `s.replace(c, repl)` for a one-character pattern. */
  function ReplaceChar(s: string, c: char, repl: string): string {
    if |s| == 0 then ""
    else (if s[0] == c then repl else [s[0]]) + ReplaceChar(s[1..], c, repl)
  }

  /** `' '.join(s.split())`. */
  function Collapse(s: string): string {
    Join(Words(s, IsPySpace), " ")
  }

  /** The clean-up: backticks dropped, double quotes made single, newlines
      made spaces, whitespace runs collapsed and the ends stripped. */
  function Clean(s: string): (r: string)
    ensures Cleaned(r)
  {
    var t := Scrub(s);
    ScrubAvoids(s);
    var ws := Words(t, IsPySpace);
    var P := (c: char) => c != '`' && c != '"' && c != '\n';
    assert forall i :: 0 <= i < |t| ==> P(t[i]);
    WordsKeep(t, IsPySpace, P);
    JoinKeeps(ws, P);
    JoinWordsSingleSpaced(ws, IsPySpace);
    Collapse(t)
  }

  /** Drops a leading "sql" (any case) and strips what is left; text with
      no such prefix is returned unchanged. */
  function StripSqlPrefix(s: string): (r: string)
    ensures !StartsWith(Lower(s), "sql") ==> r == s
    ensures StartsWith(Lower(s), "sql") ==> |r| <= |s| - 3
  {
    if StartsWith(Lower(s), "sql") then Trim(s[3..], IsPySpace) else s
  }

  const OnlySelect: string := "Only SELECT statements are allowed"
  const MustStartWithSelect: string := "Query must start with SELECT"

  /** `get_sql_from_gemini` as written: the keyword test runs on the text
      before clean-up. A stored query comes back verbatim; a generated one
      is accepted exactly when its stripped, lower-cased text mentions no
      forbidden word and starts with "select", and is then returned
      cleaned, the "sql" strip never firing. */
  function GetSqlAsWritten(query: string, stored: map<string, string>, reply: Result<string, string>)
    : (r: Result<string, string>)
    ensures query in stored ==> r == Ok(stored[query])
    ensures query !in stored && reply.Err? ==> r == Err(ErrorPrefix + reply.error)
    ensures query !in stored && reply.Ok? ==>
      var lower := Lower(Trim(reply.value, IsPySpace));
      && (r.Ok? <==> !MentionsForbiddenWord(lower) && StartsWith(lower, "select"))
      && (MentionsForbiddenWord(lower) ==> r == Err(ErrorPrefix + OnlySelect))
      && (!MentionsForbiddenWord(lower) && !StartsWith(lower, "select") ==> r == Err(ErrorPrefix + MustStartWithSelect))
      && (r.Ok? ==> r.value == Clean(Trim(reply.value, IsPySpace)))
    ensures query !in stored && r.Ok? ==> Cleaned(r.value) && StartsWith(Lower(r.value), "select")
    ensures r.Err? ==> StartsWith(r.error, ErrorPrefix)
  {
    if query in stored then Ok(stored[query])
    else match reply
      case Err(e) => Err(ErrorPrefix + e)
      case Ok(text) =>
        var sql := Trim(text, IsPySpace);
        var lower := Lower(sql);
        if MentionsForbiddenWord(lower) then Err(ErrorPrefix + OnlySelect)
        else if !StartsWith(lower, "select") then Err(ErrorPrefix + MustStartWithSelect)
        else
          AcceptedShape(sql);
          Ok(StripSqlPrefix(Clean(sql)))
  }

  /** `get_sql_from_gemini` with the keyword test applied to the cleaned
      text, so that the clean-up cannot assemble a keyword the test did not
      see. Everything else is as written: the "select" test still reads the
      stripped text, and the error texts are the same. */
  function GetSql(query: string, stored: map<string, string>, reply: Result<string, string>)
    : (r: Result<string, string>)
    ensures query in stored ==> r == Ok(stored[query])
    ensures query !in stored && reply.Err? ==> r == Err(ErrorPrefix + reply.error)
    ensures query !in stored && reply.Ok? ==>
      var sql := Trim(reply.value, IsPySpace);
      && (r.Ok? <==> !MentionsForbiddenWord(Lower(Clean(sql))) && StartsWith(Lower(sql), "select"))
      && (MentionsForbiddenWord(Lower(Clean(sql))) ==> r == Err(ErrorPrefix + OnlySelect))
      && (!MentionsForbiddenWord(Lower(Clean(sql))) && !StartsWith(Lower(sql), "select") ==>
            r == Err(ErrorPrefix + MustStartWithSelect))
      && (r.Ok? ==> r.value == Clean(sql))
    ensures query !in stored && r.Ok? ==>
      && Cleaned(r.value) && StartsWith(Lower(r.value), "select")
      && !MentionsForbiddenWord(Lower(r.value))
    ensures r.Err? ==> StartsWith(r.error, ErrorPrefix)
  {
    if query in stored then Ok(stored[query])
    else match reply
      case Err(e) => Err(ErrorPrefix + e)
      case Ok(text) =>
        var sql := Trim(text, IsPySpace);
        var cleaned := Clean(sql);
        if MentionsForbiddenWord(Lower(cleaned)) then Err(ErrorPrefix + OnlySelect)
        else if !StartsWith(Lower(sql), "select") then Err(ErrorPrefix + MustStartWithSelect)
        else
          AcceptedShape(sql);
          Ok(StripSqlPrefix(cleaned))
  }

  /** The shape of cleaned SQL: no backtick, double quote or newline, and
      whitespace only as single spaces between other characters (so none at
      either end and never two in a row). */
  predicate Cleaned(s: string) {
    && (forall i :: 0 <= i < |s| ==> s[i] != '`' && s[i] != '"' && s[i] != '\n')
    && SingleSpaced(s, IsPySpace)
  }

  predicate NoneOf(s: string, c: char) {
    forall i :: 0 <= i < |s| ==> s[i] != c
  }

  lemma {:induction false} ReplaceCharAvoids(s: string, c: char, repl: string, d: char)
    requires forall i :: 0 <= i < |s| ==> s[i] != d || s[i] == c
    requires NoneOf(repl, d)
    ensures NoneOf(ReplaceChar(s, c, repl), d)
  {
    if |s| > 0 {
      ReplaceCharAvoids(s[1..], c, repl, d);
      var head := if s[0] == c then repl else [s[0]];
      var r := ReplaceChar(s, c, repl);
      assert r == head + ReplaceChar(s[1..], c, repl);
      assert forall i :: 0 <= i < |head| ==> r[i] == head[i];
      assert forall i :: |head| <= i < |r| ==> r[i] == ReplaceChar(s[1..], c, repl)[i - |head|];
    }
  }

  lemma {:induction false} ReplaceCharAbsent(s: string, c: char, repl: string)
    requires NoneOf(s, c)
    ensures ReplaceChar(s, c, repl) == s
  {
    if |s| > 0 {
      ReplaceCharAbsent(s[1..], c, repl);
      assert [s[0]] + s[1..] == s;
    }
  }

  /** A prefix holding no `c` passes through unchanged. */
  lemma {:induction false} ReplaceCharPrefix(s: string, m: nat, c: char, repl: string)
    requires m <= |s| && NoneOf(s[..m], c)
    ensures ReplaceChar(s, c, repl) == s[..m] + ReplaceChar(s[m..], c, repl)
  {
    if m > 0 {
      assert s[1..][..m - 1] == s[..m][1..];
      ReplaceCharPrefix(s[1..], m - 1, c, repl);
      assert s[1..][m - 1..] == s[m..];
      assert [s[0]] + s[1..][..m - 1] == s[..m];
    }
  }

  /** The three character replacements of the clean-up. */
  function Scrub(s: string): string {
    ReplaceChar(ReplaceChar(ReplaceChar(s, '`', ""), '"', "'"), '\n', " ")
  }

  lemma ScrubAvoids(s: string)
    ensures NoneOf(Scrub(s), '`') && NoneOf(Scrub(s), '"') && NoneOf(Scrub(s), '\n')
  {
    var a := ReplaceChar(s, '`', "");
    var b := ReplaceChar(a, '"', "'");
    ReplaceCharAvoids(s, '`', "", '`');
    ReplaceCharAvoids(a, '"', "'", '`');
    ReplaceCharAvoids(b, '\n', " ", '`');
    ReplaceCharAvoids(a, '"', "'", '"');
    ReplaceCharAvoids(b, '\n', " ", '"');
    ReplaceCharAvoids(b, '\n', " ", '\n');
  }

  lemma ScrubPrefix(s: string, m: nat)
    requires m <= |s| && NoneOf(s[..m], '`') && NoneOf(s[..m], '"') && NoneOf(s[..m], '\n')
    ensures StartsWith(Scrub(s), s[..m])
  {
    var a := ReplaceChar(s, '`', "");
    ReplaceCharPrefix(s, m, '`', "");
    assert a[..m] == s[..m];
    var b := ReplaceChar(a, '"', "'");
    ReplaceCharPrefix(a, m, '"', "'");
    assert b[..m] == s[..m];
    ReplaceCharPrefix(b, m, '\n', " ");
  }

  /** The clean-up is idempotent. */
  lemma CleanIdempotent(s: string)
    ensures Clean(Clean(s)) == Clean(s)
  {
    var c := Clean(s);
    ReplaceCharAbsent(c, '`', "");
    ReplaceCharAbsent(c, '"', "'");
    ReplaceCharAbsent(c, '\n', " ");
    WordsOfJoin(Words(Scrub(s), IsPySpace), IsPySpace);
  }

  lemma LowerSelectChars(s: string)
    requires StartsWith(Lower(s), "select")
    ensures forall i :: 0 <= i < 6 ==> s[i] != '`' && s[i] != '"' && s[i] != '\n' && !IsPySpace(s[i])
  {
    assert forall i :: 0 <= i < 6 ==> Lower(s)[i] == "select"[i];
  }

  /** Text that starts with "select" in any case keeps that start through
      the clean-up, and the "sql" strip then leaves it alone. */
  lemma AcceptedShape(sql: string)
    requires StartsWith(Lower(sql), "select")
    ensures StartsWith(Lower(Clean(sql)), "select")
    ensures StripSqlPrefix(Clean(sql)) == Clean(sql)
  {
    CleanKeepsSelect(sql);
    SelectIsNotSql(Clean(sql));
  }

  lemma CleanKeepsSelect(sql: string)
    requires StartsWith(Lower(sql), "select")
    ensures StartsWith(Lower(Clean(sql)), "select")
  {
    LowerSelectChars(sql);
    ScrubPrefix(sql, 6);
    var t := Scrub(sql);
    assert t[..6] == sql[..6];
    WordsKeepPrefix(t, 6, IsPySpace);
    JoinWordsSingleSpaced(Words(t, IsPySpace), IsPySpace);
    var c := Clean(sql);
    assert c[..6] == sql[..6];
    assert Lower(c)[..6] == Lower(sql)[..6];
  }

  lemma SelectIsNotSql(c: string)
    requires StartsWith(Lower(c), "select")
    ensures StripSqlPrefix(c) == c
  {
    assert Lower(c)[..3] != "sql" by {
      assert Lower(c)[1] == 'e';
    }
  }

  // A keyword split by a backtick: the as-written test passes it, the
  // clean-up then joins the keyword back together.

  /** An occurrence of `p` puts its first two characters side by side in `s`. */
  lemma ContainsPair(s: string, p: string)
    requires |p| >= 2
    ensures Contains(s, p) ==> exists i :: 0 <= i < |s| - 1 && s[i] == p[0] && s[i + 1] == p[1]
  {
    if Contains(s, p) {
      var i := ContainsWitness(s, p);
      assert s[i] == s[i..i + |p|][0] == p[0];
      assert s[i + 1] == s[i..i + |p|][1] == p[1];
    }
  }

  predicate NoPair(s: string, a: char, b: char) {
    forall i :: 0 <= i < |s| - 1 ==> !(s[i] == a && s[i + 1] == b)
  }

  /** Any reply whose raw text passes the keyword test, starts with
      "select", and yet mentions a forbidden word once cleaned is returned
      by the as-written function and refused by the corrected one. */
  lemma CleanUpRevealsKeyword(query: string, stored: map<string, string>, text: string)
    requires query !in stored
    requires var sql := Trim(text, IsPySpace);
      !MentionsForbiddenWord(Lower(sql)) && StartsWith(Lower(sql), "select")
      && MentionsForbiddenWord(Lower(Clean(sql)))
    ensures var sql := Trim(text, IsPySpace);
      GetSqlAsWritten(query, stored, Ok(text)) == Ok(Clean(sql))
    ensures GetSql(query, stored, Ok(text)).Err?
  {
    AcceptedShape(Trim(text, IsPySpace));
  }

  lemma SplitDropIsLower(s: string)
    requires s == "select d`rop"
    ensures Lower(s) == s
  {
  }

  lemma SplitDropIsTrimmed(s: string)
    requires s == "select d`rop"
    ensures Trim(s, IsPySpace) == s
  {
    assert !IsPySpace(s[0]) && !IsPySpace(s[|s| - 1]);
  }

  lemma SplitDropPairs(s: string)
    requires s == "select d`rop"
    ensures NoPair(s, 'i', 'n') && NoPair(s, 'u', 'p') && NoPair(s, 'd', 'e')
    ensures NoPair(s, 'd', 'r') && NoPair(s, 't', 'r') && NoPair(s, 'a', 'l')
  {
  }

  /** The raw text mentions none of the forbidden words. */
  lemma SplitDropPassesRawTest(s: string)
    requires s == "select d`rop"
    ensures !MentionsForbiddenWord(Lower(Trim(s, IsPySpace)))
    ensures StartsWith(Lower(Trim(s, IsPySpace)), "select")
  {
    SplitDropIsTrimmed(s);
    SplitDropIsLower(s);
    SplitDropPairs(s);
    forall k | 0 <= k < |ForbiddenWords| ensures !Contains(s, ForbiddenWords[k]) {
      ContainsPair(s, ForbiddenWords[k]);
    }
    assert s[..6] == "select";
  }

  /** Dropping the backtick. */
  lemma SplitDropUnticked(s: string, t: string)
    requires s == "select d`rop" && t == "select drop"
    ensures ReplaceChar(s, '`', "") == t
  {
    ReplaceCharPrefix(s, 8, '`', "");
    ReplaceCharAbsent(s[9..], '`', "");
    assert s[8..] == "`" + s[9..];
    assert s[..8] + s[9..] == t;
  }

  /** The quote and newline replacements leave the result as it is. */
  lemma SelectDropUnquoted(t: string)
    requires t == "select drop"
    ensures ReplaceChar(ReplaceChar(t, '"', "'"), '\n', " ") == t
  {
    ReplaceCharAbsent(t, '"', "'");
    ReplaceCharAbsent(t, '\n', " ");
  }

  /** So does the whitespace collapse. */
  lemma SelectDropCollapsed(t: string)
    requires t == "select drop"
    ensures Collapse(t) == t
  {
    var ws := [t[..6], t[7..]];
    assert IsWord(ws[0], IsPySpace) && IsWord(ws[1], IsPySpace);
    assert Join(ws, " ") == t;
    WordsOfJoin(ws, IsPySpace);
  }

  lemma SplitDropCleaned(s: string, t: string)
    requires s == "select d`rop" && t == "select drop"
    ensures Clean(s) == t
  {
    SplitDropUnticked(s, t);
    SelectDropUnquoted(t);
    SelectDropCollapsed(t);
  }

  lemma SelectDropMentionsDrop(t: string)
    requires t == "select drop"
    ensures MentionsForbiddenWord(Lower(t))
  {
    assert Lower(t)[7..11] == ForbiddenWords[3];
    ContainsAt(Lower(t), ForbiddenWords[3], 7);
  }

  /** As written, a reply of "select d`rop" comes back as the SQL
      "select drop", which holds a forbidden word; the corrected function
      refuses the same reply. */
  lemma AsWrittenLetsKeywordThrough(s: string, t: string)
    requires s == "select d`rop" && t == "select drop"
    ensures GetSqlAsWritten("q", map[], Ok(s)) == Ok(t)
    ensures MentionsForbiddenWord(Lower(t))
    ensures GetSql("q", map[], Ok(s)).Err?
  {
    SplitDropPassesRawTest(s);
    SplitDropIsTrimmed(s);
    SplitDropCleaned(s, t);
    SelectDropMentionsDrop(t);
    CleanUpRevealsKeyword("q", map[], s);
  }
}

=== FILE: strings.dfy ===
/** String helpers used by both the browser code and the server code:
    joining, prefix and substring tests, ASCII case mapping, whitespace
    trimming (with the whitespace class of the language in question),
    whitespace splitting and decimal rendering of naturals. */
module Strings {
  import opened Wrappers

  predicate IsDigit(c: char) {
    '0' <= c <= '9'
  }

  predicate AllDigits(s: string) {
    forall i :: 0 <= i < |s| ==> IsDigit(s[i])
  }

  /** ASCII lower-casing of one character; every other character is kept. */
  function LowerChar(c: char): char {
    if 'A' <= c <= 'Z' then (c as int + 32) as char else c
  }

  /** ASCII upper-casing of one character; every other character is kept. */
  function UpperChar(c: char): char {
    if 'a' <= c <= 'z' then (c as int - 32) as char else c
  }

  function Lower(s: string): (r: string)
    ensures |r| == |s|
    ensures forall i :: 0 <= i < |s| ==> r[i] == LowerChar(s[i])
  {
    seq(|s|, i requires 0 <= i < |s| => LowerChar(s[i]))
  }

  lemma LowerAppend(a: string, b: string)
    ensures Lower(a + b) == Lower(a) + Lower(b)
  {
    assert forall i :: 0 <= i < |a| ==> (a + b)[i] == a[i];
    assert forall i :: |a| <= i < |a| + |b| ==> (a + b)[i] == b[i - |a|];
  }

  lemma LowerDrop(s: string, k: nat)
    requires k <= |s|
    ensures Lower(s)[k..] == Lower(s[k..])
  {
  }

  /** `parts.join(sep)` / `sep.join(parts)`. */
  function Join(parts: seq<string>, sep: string): string
  {
    if |parts| == 0 then ""
    else if |parts| == 1 then parts[0]
    else parts[0] + sep + Join(parts[1..], sep)
  }

  predicate StartsWith(s: string, prefix: string) {
    |prefix| <= |s| && s[..|prefix|] == prefix
  }

  /** Substring test: Python's `p in s`, JavaScript's `s.includes(p)`. */
  predicate Contains(s: string, p: string)
    decreases |s|
  {
    StartsWith(s, p) || (|s| > 0 && Contains(s[1..], p))
  }

  /** The index of the first occurrence of `p` in `s`, if any. */
  function FindFirst(s: string, p: string): (r: Option<nat>)
    ensures r.Some? ==> r.value + |p| <= |s| && s[r.value..r.value + |p|] == p
    ensures r.Some? <==> Contains(s, p)
    ensures r.Some? ==> forall j :: 0 <= j < r.value ==> !StartsWith(s[j..], p)
    decreases |s|
  {
    if StartsWith(s, p) then Some(0)
    else if |s| == 0 then None
    else match FindFirst(s[1..], p)
      case None => None
      case Some(i) =>
        assert forall j :: 1 <= j <= i ==> s[j..] == s[1..][j - 1..];
        Some(i + 1)
  }

  lemma {:induction false} ContainsAt(s: string, p: string, i: nat)
    requires i + |p| <= |s| && s[i..i + |p|] == p
    ensures Contains(s, p)
    decreases i
  {
    if i > 0 {
      assert s[1..][i - 1..i - 1 + |p|] == s[i..i + |p|];
      ContainsAt(s[1..], p, i - 1);
    }
  }

  /** Every occurrence sits at some index: the converse of `ContainsAt`. */
  lemma {:induction false} ContainsWitness(s: string, p: string) returns (i: nat)
    requires Contains(s, p)
    ensures i + |p| <= |s| && s[i..i + |p|] == p
    decreases |s|
  {
    if StartsWith(s, p) {
      i := 0;
    } else {
      var j := ContainsWitness(s[1..], p);
      assert s[1..][j..j + |p|] == s[j + 1..j + 1 + |p|];
      i := j + 1;
    }
  }

  /** The index of the first character satisfying `p`, or `|s|` when none does. */
  function FirstIndex(s: string, p: char -> bool): (i: nat)
    ensures i <= |s|
    ensures i < |s| ==> p(s[i])
    ensures forall j :: 0 <= j < i ==> !p(s[j])
  {
    if |s| == 0 || p(s[0]) then 0 else 1 + FirstIndex(s[1..], p)
  }

  /** Whitespace removed by JavaScript's `String.prototype.trim`: the
      WhiteSpace and LineTerminator characters of ECMA-262. */
  predicate IsJsSpace(c: char) {
    || c == '\t' || c == '\n' || c == '\U{000B}' || c == '\U{000C}' || c == '\r'
    || c == ' ' || c == '\U{00A0}' || c == '\U{1680}' || ('\U{2000}' <= c <= '\U{200A}')
    || c == '\U{2028}' || c == '\U{2029}' || c == '\U{202F}' || c == '\U{205F}'
    || c == '\U{3000}' || c == '\U{FEFF}'
  }

  /** Whitespace in the sense of Python's `str.isspace`, used by `strip()` and `split()`. */
  predicate IsPySpace(c: char) {
    || ('\t' <= c <= '\r') || ('\U{001C}' <= c <= '\U{001F}') || c == ' '
    || c == '\U{0085}' || c == '\U{00A0}' || c == '\U{1680}' || ('\U{2000}' <= c <= '\U{200A}')
    || c == '\U{2028}' || c == '\U{2029}' || c == '\U{202F}' || c == '\U{205F}' || c == '\U{3000}'
  }

  function TrimStart(s: string, isSpace: char -> bool): (r: string)
    ensures |r| <= |s| && r == s[|s| - |r|..]
    ensures |r| > 0 ==> !isSpace(r[0])
    ensures forall i :: 0 <= i < |s| - |r| ==> isSpace(s[i])
  {
    if |s| > 0 && isSpace(s[0]) then
      var r := TrimStart(s[1..], isSpace);
      assert forall i :: 1 <= i < |s| - |r| ==> s[i] == s[1..][i - 1];
      r
    else s
  }

  function TrimEnd(s: string, isSpace: char -> bool): (r: string)
    ensures |r| <= |s| && r == s[..|r|]
    ensures |r| > 0 ==> !isSpace(r[|r| - 1])
    ensures forall i :: |r| <= i < |s| ==> isSpace(s[i])
  {
    if |s| > 0 && isSpace(s[|s| - 1]) then TrimEnd(s[..|s| - 1], isSpace) else s
  }

  /** `s.trim()` in JavaScript, `s.strip()` in Python, given the whitespace class. */
  function Trim(s: string, isSpace: char -> bool): (r: string)
    ensures |r| <= |s|
    ensures |r| > 0 ==> !isSpace(r[0]) && !isSpace(r[|r| - 1])
    ensures r == "" <==> forall i :: 0 <= i < |s| ==> isSpace(s[i])
    ensures |s| > 0 && !isSpace(s[0]) && !isSpace(s[|s| - 1]) ==> r == s
  {
    var t := TrimStart(s, isSpace);
    TrimEnd(t, isSpace)
  }

  /** Trimmed text is a slice of the original; `k` is where it starts. */
  lemma TrimIsSlice(s: string, isSpace: char -> bool) returns (k: nat)
    ensures var r := Trim(s, isSpace); k + |r| <= |s| && r == s[k..k + |r|]
  {
    var t := TrimStart(s, isSpace);
    k := |s| - |t|;
    SliceOfSuffix(s, t, TrimEnd(t, isSpace), k);
  }

  lemma SliceOfSuffix(s: string, t: string, r: string, k: nat)
    requires k <= |s| && t == s[k..] && |r| <= |t| && r == t[..|r|]
    ensures r == s[k..k + |r|]
  {
  }

  /** The longest prefix of `s` holding no whitespace. */
  function LeadingWord(s: string, isSpace: char -> bool): (w: string)
    ensures |w| <= |s| && w == s[..|w|]
    ensures forall i :: 0 <= i < |w| ==> !isSpace(w[i])
    ensures |w| < |s| ==> isSpace(s[|w|])
  {
    if |s| == 0 || isSpace(s[0]) then "" else [s[0]] + LeadingWord(s[1..], isSpace)
  }

  /** Python's argument-less `s.split()`: the maximal runs of non-whitespace. */
  function Words(s: string, isSpace: char -> bool): (ws: seq<string>)
    ensures forall k :: 0 <= k < |ws| ==> IsWord(ws[k], isSpace)
    decreases |s|
  {
    if |s| == 0 then []
    else if isSpace(s[0]) then Words(s[1..], isSpace)
    else
      var w := LeadingWord(s, isSpace);
      [w] + Words(s[|w|..], isSpace)
  }

  /** A non-empty piece of text holding no whitespace. */
  predicate IsWord(w: string, isSpace: char -> bool) {
    |w| > 0 && forall i :: 0 <= i < |w| ==> !isSpace(w[i])
  }

  /** Every character of every word of `s` satisfies `P` when every
      character of `s` does. */
  lemma {:induction false} WordsKeep(s: string, isSpace: char -> bool, P: char -> bool)
    requires forall i :: 0 <= i < |s| ==> P(s[i])
    ensures forall k, j :: 0 <= k < |Words(s, isSpace)| && 0 <= j < |Words(s, isSpace)[k]| ==>
      P(Words(s, isSpace)[k][j])
    decreases |s|
  {
    if |s| > 0 {
      if isSpace(s[0]) {
        WordsKeep(s[1..], isSpace, P);
        assert Words(s, isSpace) == Words(s[1..], isSpace);
      } else {
        var w := LeadingWord(s, isSpace);
        WordsKeep(s[|w|..], isSpace, P);
        var ws := Words(s, isSpace);
        assert ws == [w] + Words(s[|w|..], isSpace);
        forall k, j | 0 <= k < |ws| && 0 <= j < |ws[k]| ensures P(ws[k][j]) {
          if k == 0 {
            assert ws[0][j] == s[j];
          } else {
            assert ws[k] == Words(s[|w|..], isSpace)[k - 1];
          }
        }
      }
    }
  }

  /** Joining words with single spaces leaves every character a word
      character or a space. */
  lemma {:induction false} JoinKeeps(ws: seq<string>, P: char -> bool)
    requires P(' ')
    requires forall k, j :: 0 <= k < |ws| && 0 <= j < |ws[k]| ==> P(ws[k][j])
    ensures forall i :: 0 <= i < |Join(ws, " ")| ==> P(Join(ws, " ")[i])
  {
    if |ws| > 1 {
      JoinKeeps(ws[1..], P);
      var r := Join(ws, " ");
      var rest := Join(ws[1..], " ");
      assert r == ws[0] + " " + rest;
      forall i | 0 <= i < |r| ensures P(r[i]) {
        if i < |ws[0]| {
          assert r[i] == ws[0][i];
        } else if i > |ws[0]| {
          assert r[i] == rest[i - |ws[0]| - 1];
        }
      }
    } else if |ws| == 1 {
      assert forall j :: 0 <= j < |ws[0]| ==> P(ws[0][j]);
    }
  }

  /** The text of words joined by single spaces: whitespace occurs only as a
      single ' ' between two non-whitespace characters. */
  predicate SingleSpaced(r: string, isSpace: char -> bool) {
    forall i :: 0 <= i < |r| && isSpace(r[i]) ==>
      r[i] == ' ' && 0 < i < |r| - 1 && !isSpace(r[i - 1]) && !isSpace(r[i + 1])
  }

  lemma {:induction false} JoinWordsSingleSpaced(ws: seq<string>, isSpace: char -> bool)
    requires forall k :: 0 <= k < |ws| ==> IsWord(ws[k], isSpace)
    ensures SingleSpaced(Join(ws, " "), isSpace)
    ensures |ws| > 0 ==> StartsWith(Join(ws, " "), ws[0])
  {
    if |ws| > 1 {
      JoinWordsSingleSpaced(ws[1..], isSpace);
      var r := Join(ws, " ");
      var rest := Join(ws[1..], " ");
      assert r == ws[0] + " " + rest;
      assert |rest| >= |ws[1]| > 0 && rest[0] == ws[1][0];
      assert forall i :: 0 <= i < |ws[0]| ==> r[i] == ws[0][i];
      forall i | 0 <= i < |r| && isSpace(r[i])
        ensures r[i] == ' ' && 0 < i < |r| - 1 && !isSpace(r[i - 1]) && !isSpace(r[i + 1])
      {
        if i > |ws[0]| {
          var i' := i - |ws[0]| - 1;
          assert r[i] == rest[i'];
          if i' > 0 {
            assert r[i - 1] == rest[i' - 1];
          }
          assert r[i + 1] == rest[i' + 1];
        } else {
          assert r[i - 1] == ws[0][|ws[0]| - 1];
        }
      }
      assert r[..|ws[0]|] == ws[0];
    } else if |ws| == 1 {
      assert Join(ws, " ") == ws[0];
    }
  }

  lemma {:induction false} LeadingWordOfJoin(w: string, rest: string, isSpace: char -> bool)
    requires IsWord(w, isSpace)
    requires rest == "" || isSpace(rest[0])
    ensures LeadingWord(w + rest, isSpace) == w
    decreases |w|
  {
    if |w| > 1 {
      assert (w + rest)[1..] == w[1..] + rest;
      LeadingWordOfJoin(w[1..], rest, isSpace);
    } else {
      assert (w + rest)[1..] == rest;
    }
  }

  /** Splitting words joined by single spaces gives the words back: the
      `' '.join(s.split())` normalisation is idempotent. */
  lemma {:induction false} WordsOfJoin(ws: seq<string>, isSpace: char -> bool)
    requires isSpace(' ')
    requires forall k :: 0 <= k < |ws| ==> IsWord(ws[k], isSpace)
    ensures Words(Join(ws, " "), isSpace) == ws
  {
    if |ws| == 1 {
      LeadingWordOfJoin(ws[0], "", isSpace);
      assert ws[0] + "" == ws[0];
      assert Join(ws, " ")[|ws[0]|..] == "";
    } else if |ws| > 1 {
      var rest := Join(ws[1..], " ");
      var s := Join(ws, " ");
      assert s == ws[0] + (" " + rest);
      LeadingWordOfJoin(ws[0], " " + rest, isSpace);
      assert s[|ws[0]|..] == " " + rest;
      assert (" " + rest)[1..] == rest;
      WordsOfJoin(ws[1..], isSpace);
      assert Words(" " + rest, isSpace) == Words(rest, isSpace);
      assert [ws[0]] + ws[1..] == ws;
    }
  }

  /** A prefix free of whitespace stays at the front of the first word. */
  lemma {:induction false} WordsKeepPrefix(s: string, m: nat, isSpace: char -> bool)
    requires 0 < m <= |s|
    requires forall i :: 0 <= i < m ==> !isSpace(s[i])
    ensures |Words(s, isSpace)| > 0 && StartsWith(Words(s, isSpace)[0], s[..m])
  {
    var w := LeadingWord(s, isSpace);
    LeadingWordLength(s, m, isSpace);
    assert w[..m] == s[..m];
  }

  lemma {:induction false} LeadingWordLength(s: string, m: nat, isSpace: char -> bool)
    requires m <= |s|
    requires forall i :: 0 <= i < m ==> !isSpace(s[i])
    ensures |LeadingWord(s, isSpace)| >= m
  {
    if m > 0 {
      LeadingWordLength(s[1..], m - 1, isSpace);
    }
  }

  /** Decimal rendering of a natural number, without leading zeros. */
  function NatToString(n: nat): (r: string)
    ensures |r| > 0 && AllDigits(r)
  {
    if n < 10 then [('0' as int + n) as char]
    else NatToString(n / 10) + [('0' as int + n % 10) as char]
  }

  /** Python's `str(i)` for an integer. */
  function IntToString(i: int): string {
    if i < 0 then "-" + NatToString(-i) else NatToString(i)
  }

  /** The value of a string of decimal digits. */
  function ParseNat(s: string): nat
    requires AllDigits(s)
  {
    if |s| == 0 then 0
    else ParseNat(s[..|s| - 1]) * 10 + (s[|s| - 1] as int - '0' as int)
  }

  /** Reading a rendered natural back gives the natural. */
  lemma {:induction false} ParseNatToString(n: nat)
    ensures ParseNat(NatToString(n)) == n
  {
    var s := NatToString(n);
    if n >= 10 {
      assert s[..|s| - 1] == NatToString(n / 10);
      ParseNatToString(n / 10);
    }
  }
}

=== FILE: summary.dfy ===
/** `generate_summary` in app.py: a one-line description of a result set,
    counting its records and the keys of the first one. */
module Summary {
  import opened Wrappers
  import opened Strings
  import opened Fallback

  const NoData: string := "No data available."

  function Summarize(data: seq<Item>): (r: string)
    ensures |data| == 0 <==> r == NoData
  {
    if |data| == 0 then NoData
    else "Found " + (NatToString(|data|) + (" records with " + (NatToString(|data[0]|) + " fields.")))
  }

  /** The longest prefix of `s` made of decimal digits. */
  function LeadingDigits(s: string): (d: string)
    ensures |d| <= |s| && d == s[..|d|] && AllDigits(d)
    ensures |d| < |s| ==> !IsDigit(s[|d|])
  {
    if |s| == 0 || !IsDigit(s[0]) then ""
    else [s[0]] + LeadingDigits(s[1..])
  }

  /** Reads a decimal number that `lit` follows; gives the number and
      what comes after `lit`. */
  function ReadNumberThen(s: string, lit: string): Option<(nat, string)> {
    var d := LeadingDigits(s);
    var after := s[|d|..];
    if |d| == 0 || !StartsWith(after, lit) then None
    else Some((ParseNat(d), after[|lit|..]))
  }

  /** Reads the two counts back out of a summary line; `None` for the
      empty-data line and for any text of another shape. */
  function ReadSummary(s: string): Option<(nat, nat)> {
    if !StartsWith(s, "Found ") then None
    else match ReadNumberThen(s[6..], " records with ")
      case None => None
      case Some((n, rest)) =>
        match ReadNumberThen(rest, " fields.")
          case Some((k, "")) => Some((n, k))
          case _ => None
  }

  /** The digits of a rendered number stop where the number does. */
  lemma {:induction false} LeadingDigitsOfNumber(n: nat, rest: string)
    requires |rest| > 0 && !IsDigit(rest[0])
    ensures LeadingDigits(NatToString(n) + rest) == NatToString(n)
  {
    LeadingDigitsOfDigits(NatToString(n), rest);
  }

  lemma {:induction false} LeadingDigitsOfDigits(d: string, rest: string)
    requires AllDigits(d) && |rest| > 0 && !IsDigit(rest[0])
    ensures LeadingDigits(d + rest) == d
  {
    if |d| > 0 {
      assert (d + rest)[1..] == d[1..] + rest;
      LeadingDigitsOfDigits(d[1..], rest);
    } else {
      assert d + rest == rest;
    }
  }

  lemma ReadNumberThenOf(n: nat, lit: string, rest: string)
    requires |lit| > 0 && !IsDigit(lit[0])
    ensures ReadNumberThen(NatToString(n) + (lit + rest), lit) == Some((n, rest))
  {
    var ns := NatToString(n);
    LeadingDigitsOfNumber(n, lit + rest);
    assert (ns + (lit + rest))[|ns|..] == lit + rest;
    assert (lit + rest)[..|lit|] == lit;
    assert (lit + rest)[|lit|..] == rest;
    ParseNatToString(n);
  }

  /** The parser undoes the rendering of any two counts. */
  lemma ReadSummaryLine(n: nat, k: nat, found: string, mid: string, tail: string)
    requires found == "Found " && mid == " records with " && tail == " fields."
    ensures ReadSummary(found + (NatToString(n) + (mid + (NatToString(k) + tail)))) == Some((n, k))
  {
    var ks := NatToString(k);
    var s1 := NatToString(n) + (mid + (ks + tail));
    assert (found + s1)[6..] == s1;
    assert tail + "" == tail;
    ReadNumberThenOf(n, mid, ks + tail);
    ReadNumberThenOf(k, tail, "");
  }

  lemma NoDataReadsAsNothing()
    ensures ReadSummary(NoData) == None
  {
    assert NoData[..6][0] != "Found "[0];
  }

  /** Reading a summary gives back the record count and the first record's
      key count; the empty-data line reads as nothing. */
  lemma SummaryRoundTrip(data: seq<Item>)
    ensures |data| == 0 ==> ReadSummary(Summarize(data)) == None
    ensures |data| > 0 ==> ReadSummary(Summarize(data)) == Some((|data|, |data[0]|))
  {
    if |data| > 0 {
      ReadSummaryLine(|data|, |data[0]|, "Found ", " records with ", " fields.");
    } else {
      NoDataReadsAsNothing();
    }
  }
}

=== FILE: uploads.dfy ===
/** The upload extension check `allowed_file` of app.py. */
module Uploads {
  import opened Wrappers
  import opened Strings

  const AllowedExtensions: set<string> := {"csv", "json"}

  /** The index of the last occurrence of `c` in `s`. */
  function LastIndexOf(s: string, c: char): (r: Option<nat>)
    ensures r.Some? ==> r.value < |s| && s[r.value] == c && forall j :: r.value < j < |s| ==> s[j] != c
    ensures r.None? ==> forall j :: 0 <= j < |s| ==> s[j] != c
  {
    if |s| == 0 then None
    else if s[|s| - 1] == c then Some(|s| - 1)
    else LastIndexOf(s[..|s| - 1], c)
  }

  /** `'.' in filename and filename.rsplit('.', 1)[1].lower() in ALLOWED_EXTENSIONS`. */
  predicate AllowedFile(filename: string)
    ensures AllowedFile(filename) ==>
      || (|filename| >= 4 && filename[|filename| - 4] == '.')
      || (|filename| >= 5 && filename[|filename| - 5] == '.')
  {
    && Contains(filename, ".")
    && var dot := LastIndexOf(filename, '.');
       dot.Some? && Lower(filename[dot.value + 1..]) in AllowedExtensions
  }

  /** The name ends, ignoring ASCII case, with `ext`. */
  predicate EndsWithIgnoringCase(s: string, ext: string) {
    |ext| <= |s| && Lower(s[|s| - |ext|..]) == ext
  }

  lemma LowerDot(c: char)
    ensures LowerChar(c) == '.' <==> c == '.'
  {
  }

  lemma ContainsChar(s: string, i: nat)
    requires i < |s|
    ensures Contains(s, [s[i]])
  {
    ContainsAt(s, [s[i]], i);
  }

  /** Lower-casing the text from a dot on keeps the dot. */
  lemma LowerFromDot(filename: string, dot: nat)
    requires dot < |filename| && filename[dot] == '.'
    ensures Lower(filename[dot..]) == "." + Lower(filename[dot + 1..])
  {
    assert filename[dot..] == "." + filename[dot + 1..];
    LowerAppend(".", filename[dot + 1..]);
  }

  lemma EndsFrom(filename: string, i: nat, e: string)
    requires i <= |filename| && Lower(filename[i..]) == e
    ensures EndsWithIgnoringCase(filename, e)
  {
    assert filename[|filename| - |e|..] == filename[i..];
  }

  lemma AllowedHasSuffix(filename: string)
    requires AllowedFile(filename)
    ensures EndsWithIgnoringCase(filename, ".csv") || EndsWithIgnoringCase(filename, ".json")
  {
    var dot := LastIndexOf(filename, '.').value;
    var ext := Lower(filename[dot + 1..]);
    LowerFromDot(filename, dot);
    if ext == "csv" {
      EndsFrom(filename, dot, ".csv");
    } else {
      EndsFrom(filename, dot, ".json");
    }
  }

  lemma SuffixIsAllowed(filename: string, ext: string)
    requires ext == ".csv" || ext == ".json"
    requires EndsWithIgnoringCase(filename, ext)
    ensures AllowedFile(filename)
  {
    var n := |filename|;
    var k := |ext|;
    var tail := filename[n - k..];
    assert Lower(tail)[0] == '.';
    LowerDot(tail[0]);
    assert filename[n - k] == '.';
    ContainsChar(filename, n - k);
    forall j | n - k < j < n ensures filename[j] != '.' {
      assert Lower(tail)[j - (n - k)] != '.';
      LowerDot(filename[j]);
    }
    assert LastIndexOf(filename, '.') == Some(n - k);
    LowerDrop(tail, 1);
    assert tail[1..] == filename[n - k + 1..];
    assert Lower(filename[n - k + 1..]) == ext[1..];
    assert ext[1..] == "csv" || ext[1..] == "json";
  }

  /** A file is accepted exactly when its name ends in ".csv" or ".json",
      in any ASCII case; so "x." and "csv" are both refused. */
  lemma AllowedFileIsSuffix(filename: string)
    ensures AllowedFile(filename) <==>
      EndsWithIgnoringCase(filename, ".csv") || EndsWithIgnoringCase(filename, ".json")
  {
    if AllowedFile(filename) {
      AllowedHasSuffix(filename);
    }
    if EndsWithIgnoringCase(filename, ".csv") {
      SuffixIsAllowed(filename, ".csv");
    }
    if EndsWithIgnoringCase(filename, ".json") {
      SuffixIsAllowed(filename, ".json");
    }
  }

  /** A name ending in a bare dot has an empty extension and is refused. */
  lemma EmptyExtensionRefused(f: string)
    requires f == "x."
    ensures !AllowedFile(f)
  {
    AllowedFileIsSuffix(f);
  }

  /** A name without a dot is refused, even one spelling an extension. */
  lemma DotlessNameRefused(f: string)
    requires f == "csv"
    ensures !AllowedFile(f)
  {
    AllowedFileIsSuffix(f);
  }

  /** The extension is compared without regard to case. */
  lemma UpperCaseExtensionAccepted(f: string)
    requires f == "DATA.Csv"
    ensures AllowedFile(f)
  {
    AllowedFileIsSuffix(f);
    assert Lower(f[4..]) == ".csv";
  }
}

=== FILE: visualization.dfy ===
/** The chart advisor and chart data builder of static/js/visualization.js:
    whether a result set can be charted, which chart type suits it, and how
    its records are reshaped into labels plus datasets. Every decision is
    taken from the first record alone. */
module Visualization {
  import opened Wrappers
  import opened Records

  datatype ChartType = Pie | Bar | Line

  /** `cols.filter(col => !isNaN(first[col]) == numeric)`. */
  function ColumnsWhere(first: Record, cols: seq<string>, numeric: bool): (r: seq<string>)
    ensures |r| <= |cols|
  {
    if |cols| == 0 then []
    else (if !IsNaN(Lookup(first, cols[0])) == numeric then [cols[0]] else [])
         + ColumnsWhere(first, cols[1..], numeric)
  }

  function NumericColumns(first: Record): seq<string> {
    ColumnsWhere(first, Keys(first), true)
  }

  function CategoryColumns(first: Record): seq<string> {
    ColumnsWhere(first, Keys(first), false)
  }

  /** `canVisualize`: there is data and some value of its first record is numeric-like. */
  predicate CanVisualize(data: Option<seq<Record>>)
    ensures CanVisualize(data) ==> data.Some? && |data.value| > 0
    ensures data.Some? && |data.value| > 0 ==>
      (CanVisualize(data) <==> exists i :: 0 <= i < |data.value[0]| && NumericLike(data.value[0][i].value))
  {
    && data.Some? && |data.value| > 0
    && exists v :: v in Values(data.value[0]) && NumericLike(v)
  }

  /** Some column of `first` holds a Date instance. */
  predicate HasDateColumn(first: Record) {
    var cols := Keys(first);
    exists i :: 0 <= i < |cols| && Lookup(first, cols[i]).Some? && Lookup(first, cols[i]).value.Date?
  }

  /** `suggestChartType`. */
  function SuggestChartType(data: Option<seq<Record>>): (r: Option<ChartType>)
    ensures r.Some? ==> data.Some? && |data.value| > 0 && |NumericColumns(data.value[0])| > 0
    ensures r == Some(Pie) ==> |data.value| <= 10 && |Keys(data.value[0])| == 2
    ensures r == Some(Line) ==> HasDateColumn(data.value[0])
  {
    if data.None? || |data.value| == 0 then None
    else
      var first := data.value[0];
      var columns := Keys(first);
      var numeric := NumericColumns(first);
      if |numeric| == 0 then None
      else if |columns| == 2 && |numeric| == 1 then Some(if |data.value| <= 10 then Pie else Bar)
      else if HasDateColumn(first) then Some(Line)
      else if |numeric| > 1 then Some(Bar)
      else Some(Bar)
  }

  /** Membership in a filtered column list: exactly the columns of the given class. */
  lemma {:induction false} ColumnsWhereMembers(first: Record, cols: seq<string>, numeric: bool, c: string)
    ensures c in ColumnsWhere(first, cols, numeric) <==> c in cols && (!IsNaN(Lookup(first, c)) == numeric)
  {
    if |cols| > 0 {
      ColumnsWhereMembers(first, cols[1..], numeric, c);
      assert cols == [cols[0]] + cols[1..];
    }
  }

  /** `cols` is an order-preserving interleaving of `a` and `b`: every column
      lands in exactly one of them, and each keeps the order of `cols`. */
  predicate Interleaves(cols: seq<string>, a: seq<string>, b: seq<string>)
    decreases |cols|
  {
    if |cols| == 0 then a == [] && b == []
    else
      || (|a| > 0 && a[0] == cols[0] && Interleaves(cols[1..], a[1..], b))
      || (|b| > 0 && b[0] == cols[0] && Interleaves(cols[1..], a, b[1..]))
  }

  lemma {:induction false} ColumnsWhereInterleave(first: Record, cols: seq<string>)
    ensures Interleaves(cols, ColumnsWhere(first, cols, true), ColumnsWhere(first, cols, false))
  {
    if |cols| > 0 {
      ColumnsWhereInterleave(first, cols[1..]);
      var a := ColumnsWhere(first, cols, true);
      var b := ColumnsWhere(first, cols, false);
      if !IsNaN(Lookup(first, cols[0])) {
        assert a == [cols[0]] + ColumnsWhere(first, cols[1..], true);
        assert b == ColumnsWhere(first, cols[1..], false);
        assert a[1..] == ColumnsWhere(first, cols[1..], true);
      } else {
        assert a == ColumnsWhere(first, cols[1..], true);
        assert b == [cols[0]] + ColumnsWhere(first, cols[1..], false);
        assert b[1..] == ColumnsWhere(first, cols[1..], false);
      }
    }
  }

  /** The numeric and categorical columns partition the first record's keys:
      no key is in both, every key is in one, and each list keeps key order. */
  lemma ColumnsPartition(first: Record)
    ensures |NumericColumns(first)| + |CategoryColumns(first)| == |first|
    ensures forall c :: c in NumericColumns(first) ==> c !in CategoryColumns(first)
    ensures forall c :: c in Keys(first) <==> c in NumericColumns(first) || c in CategoryColumns(first)
    ensures Interleaves(Keys(first), NumericColumns(first), CategoryColumns(first))
  {
    var cols := Keys(first);
    forall c ensures c in NumericColumns(first) <==> c in cols && !IsNaN(Lookup(first, c)) {
      ColumnsWhereMembers(first, cols, true, c);
    }
    forall c ensures c in CategoryColumns(first) <==> c in cols && IsNaN(Lookup(first, c)) {
      ColumnsWhereMembers(first, cols, false, c);
    }
    ColumnsWhereInterleave(first, cols);
    InterleavesLength(cols, NumericColumns(first), CategoryColumns(first));
  }

  lemma {:induction false} InterleavesLength(cols: seq<string>, a: seq<string>, b: seq<string>)
    requires Interleaves(cols, a, b)
    ensures |a| + |b| == |cols|
    decreases |cols|
  {
    if |cols| > 0 {
      if |a| > 0 && a[0] == cols[0] && Interleaves(cols[1..], a[1..], b) {
        InterleavesLength(cols[1..], a[1..], b);
      } else {
        InterleavesLength(cols[1..], a, b[1..]);
      }
    }
  }

  /** With distinct keys, some value of the record is numeric-like exactly
      when some column is classified numeric. */
  lemma NumericColumnExists(first: Record)
    requires DistinctKeys(first)
    ensures |NumericColumns(first)| > 0 <==> exists v :: v in Values(first) && NumericLike(v)
  {
    if |NumericColumns(first)| > 0 {
      NumericColumnHasValue(first);
    }
    if exists v :: v in Values(first) && NumericLike(v) {
      NumericValueHasColumn(first);
    }
  }

  lemma NumericColumnHasValue(first: Record)
    requires |NumericColumns(first)| > 0
    ensures exists v :: v in Values(first) && NumericLike(v)
  {
    var c := NumericColumns(first)[0];
    ColumnsWhereMembers(first, Keys(first), true, c);
    var i := LookupFindsAField(first, c);
    assert Values(first)[i] == Lookup(first, c).value;
  }

  lemma NumericValueHasColumn(first: Record)
    requires DistinctKeys(first)
    requires exists v :: v in Values(first) && NumericLike(v)
    ensures |NumericColumns(first)| > 0
  {
    var v :| v in Values(first) && NumericLike(v);
    var i :| 0 <= i < |first| && Values(first)[i] == v;
    LookupOwnKey(first, i);
    ColumnsWhereMembers(first, Keys(first), true, first[i].key);
  }

  /** `suggestChartType` gives no chart exactly when the data is missing or
      empty or the first record has no numeric-like value; so on non-empty
      data it agrees with `canVisualize`. */
  lemma SuggestAgreesWithCanVisualize(data: Option<seq<Record>>)
    requires data.Some? && |data.value| > 0 ==> DistinctKeys(data.value[0])
    ensures SuggestChartType(data).Some? <==> CanVisualize(data)
  {
    if data.Some? && |data.value| > 0 {
      NumericColumnExists(data.value[0]);
    }
  }

  /** One categorical and one numeric column: a pie for at most ten rows,
      bars beyond that. */
  lemma PieRule(data: seq<Record>)
    requires |data| > 0
    requires |Keys(data[0])| == 2 && |NumericColumns(data[0])| == 1
    ensures SuggestChartType(Some(data)) == Some(if |data| <= 10 then Pie else Bar)
  {
  }

  /** Outside the pie rule: a line chart when a first-record value is a Date
      instance, otherwise bars. */
  lemma LineOrBarRule(data: seq<Record>)
    requires |data| > 0 && |NumericColumns(data[0])| > 0
    requires !(|Keys(data[0])| == 2 && |NumericColumns(data[0])| == 1)
    ensures SuggestChartType(Some(data)) == Some(if HasDateColumn(data[0]) then Line else Bar)
  {
  }

  /** A record holding no Date instance never yields a line chart; records
      decoded from JSON hold none, so the line rule never fires for them. */
  lemma NoDateNoLine(data: seq<Record>)
    requires |data| > 0
    requires forall i :: 0 <= i < |data[0]| ==> !data[0][i].value.Date?
    ensures SuggestChartType(Some(data)) != Some(Line)
  {
    if HasDateColumn(data[0]) {
      var cols := Keys(data[0]);
      var i :| 0 <= i < |cols| && Lookup(data[0], cols[i]).Some? && Lookup(data[0], cols[i]).value.Date?;
      var j := LookupFindsAField(data[0], cols[i]);
    }
  }

  // Chart data builder.

  /** The pie palette: eight fixed colours, whatever the number of rows. */
  const PiePalette: seq<string> :=
    ["#FF6384", "#36A2EB", "#FFCE56", "#4BC0C0", "#9966FF", "#FF9F40", "#FF6384", "#36A2EB"]

  /** The single colour of every bar and line series. */
  const SeriesColour: string := "#36A2EB"

  datatype Style =
    | Slices(backgroundColors: seq<string>)
    | Bars(backgroundColor: string, borderColor: string)
    | Lines(fill: bool, borderColor: string)

  /** A dataset; `caption` is the series `label`, `None` where the source sets none. */
  datatype Dataset = Dataset(caption: Option<string>, data: seq<Option<Value>>, style: Style)

  datatype ChartData = ChartData(labels: seq<Option<Value>>, datasets: seq<Dataset>)

  /** `cols[0]` used as a property key: an empty list gives `undefined`,
      which JavaScript converts to the key "undefined". */
  function KeyOfFirst(cols: seq<string>): (k: string)
    ensures |cols| > 0 ==> k == cols[0]
    ensures |cols| == 0 ==> k == "undefined"
  {
    if |cols| > 0 then cols[0] else "undefined"
  }

  /** `data.map(row => row[key])`. */
  function Column(data: seq<Record>, key: string): (r: seq<Option<Value>>)
    ensures |r| == |data|
    ensures forall i :: 0 <= i < |data| ==> r[i] == Lookup(data[i], key)
  {
    seq(|data|, i requires 0 <= i < |data| => Lookup(data[i], key))
  }

  /** `prepareChartData`; the source reads `data[0]`, so the data must be non-empty. */
  function PrepareChartData(data: seq<Record>, chartType: ChartType): (r: ChartData)
    requires |data| > 0
    ensures |r.labels| == |data|
    ensures forall i :: 0 <= i < |data| ==> r.labels[i] == Lookup(data[i], KeyOfFirst(CategoryColumns(data[0])))
    ensures |CategoryColumns(data[0])| > 0 ==>
      forall i :: 0 <= i < |data| ==> r.labels[i] == Lookup(data[i], CategoryColumns(data[0])[0])
    ensures |CategoryColumns(data[0])| == 0 ==>
      forall i :: 0 <= i < |data| ==> r.labels[i] == Lookup(data[i], "undefined")
    ensures chartType == Pie ==>
      && |r.datasets| == 1 && r.datasets[0].style == Slices(PiePalette) && |PiePalette| == 8
      && |r.datasets[0].data| == |data|
      && (forall i :: 0 <= i < |data| ==> r.datasets[0].data[i] == Lookup(data[i], KeyOfFirst(NumericColumns(data[0]))))
      && (|NumericColumns(data[0])| > 0 ==>
            forall i :: 0 <= i < |data| ==> r.datasets[0].data[i] == Lookup(data[i], NumericColumns(data[0])[0]))
      && (|NumericColumns(data[0])| == 0 ==>
            forall i :: 0 <= i < |data| ==> r.datasets[0].data[i] == Lookup(data[i], "undefined"))
    ensures chartType != Pie ==>
      var numeric := NumericColumns(data[0]);
      && |r.datasets| == |numeric|
      && forall j :: 0 <= j < |numeric| ==>
           && r.datasets[j].caption == Some(numeric[j])
           && |r.datasets[j].data| == |data|
           && (forall i :: 0 <= i < |data| ==> r.datasets[j].data[i] == Lookup(data[i], numeric[j]))
           && r.datasets[j].style == (if chartType == Bar then Bars(SeriesColour, SeriesColour) else Lines(false, SeriesColour))
  {
    var numeric := NumericColumns(data[0]);
    var category := CategoryColumns(data[0]);
    var labels := Column(data, KeyOfFirst(category));
    match chartType
    case Pie =>
      ChartData(labels, [Dataset(None, Column(data, KeyOfFirst(numeric)), Slices(PiePalette))])
    case Bar =>
      ChartData(labels, seq(|numeric|, j requires 0 <= j < |numeric| =>
        Dataset(Some(numeric[j]), Column(data, numeric[j]), Bars(SeriesColour, SeriesColour))))
    case Line =>
      ChartData(labels, seq(|numeric|, j requires 0 <= j < |numeric| =>
        Dataset(Some(numeric[j]), Column(data, numeric[j]), Lines(false, SeriesColour))))
  }

  /** A pie the advisor chooses is built from the record's two columns: the
      labels are the categorical column and the one dataset the numeric one,
      so neither falls back to the key "undefined". */
  lemma AdvisedPieUsesBothColumns(data: seq<Record>)
    requires |data| > 0 && SuggestChartType(Some(data)) == Some(Pie)
    ensures |CategoryColumns(data[0])| == 1 && |NumericColumns(data[0])| == 1
    ensures var r := PrepareChartData(data, Pie);
      forall i :: 0 <= i < |data| ==>
        && r.labels[i] == Lookup(data[i], CategoryColumns(data[0])[0])
        && r.datasets[0].data[i] == Lookup(data[i], NumericColumns(data[0])[0])
  {
    ColumnsPartition(data[0]);
  }

  /** A bar or line chart the advisor chooses has one dataset per numeric
      column, and so at least one. */
  lemma AdvisedChartHasSeries(data: seq<Record>, t: ChartType)
    requires |data| > 0 && SuggestChartType(Some(data)) == Some(t)
    ensures t != Pie ==> |PrepareChartData(data, t).datasets| == |NumericColumns(data[0])| > 0
  {
  }
}

=== FILE: wrappers.dfy ===
/** Failure-carrying datatypes shared by every module of the model. */
module Wrappers {

  /** A value that may be absent: JavaScript's `undefined`, a missing JSON field. */
  datatype Option<+T> = None | Some(value: T)

  /** The outcome of a step that can raise: `Err` carries the exception's message. */
  datatype Result<+T, +E> = Ok(value: T) | Err(error: E)
}
